=== FILE: README.md ===
# health-supply-locker: a Dafny model of the client-side core

health-supply-locker is a static web front end for a health-supply
verification demo. It has a landing page, a login/signup page and a
dashboard with an embedded phone mock-up. Its behaviour lives in three
scripts: `app.js`, `auth.js` and `dashboard.js`. Most of those scripts are
DOM glue. This project models the parts that can be stated precisely:

- **Validators and scoring** (`app.js`):
  - the five-criterion password-strength score with its ordered feedback;
  - the strength meter's label and colour lookup;
  - the e-mail regular expression;
  - the password-length check;
  - the toast-icon table;
  - the spinner;
  - the `Storage` wrapper over local storage.
- **The session layer** (`auth.js`, `dashboard.js`):
  - the login and signup handlers: their first-failure validation chains, the user record they write, the storage keys they touch and the visible effects they produce;
  - the guard on the auth page that forwards a logged-in visitor;
  - the guard on the dashboard that sends an anonymous visitor back;
  - the dashboard's user panel;
  - logout.
- **Small UI state machines:**
  - the login/signup tab switch;
  - dashboard page navigation and its title lookup;
  - the action-card target extraction;
  - the phone mock-up's airplane-mode / generate-proof / submit machine;
  - the mobile view switcher.

Everything is a pure function over immutable datatypes:

- The page is an abstract record: sets of ids carrying the "active" class, booleans for disabled controls, and a title or status string.
- Every `await` and `setTimeout` is one atomic step.
- A handler returns the new store together with the ordered trace of what it made visible: toasts, the spinner shown and hidden, a modal, a redirect.

The modules are:

| file | module | contents |
|---|---|---|
| js_values.dfy | `JsValues` | stored values, truthiness, object-literal property lookup, logical-or fallback |
| storage.dfy | `Storage` | `Storage.set/get/remove` as a finite map |
| strength.dfy | `PasswordStrength` | `checkPasswordStrength`, `validatePassword`, the strength meter lookup |
| email.dfy | `Email` | `validateEmail` and the regular expression it tests |
| feedback.dfy | `Feedback` | toast icons, the spinner, the effect trace |
| quoted.dfy | `Quoted` | the two `match(...)[1]` extractions of a quoted name from an `onclick` attribute |
| session.dfy | `Session` | `handleLogin`, `handleSignup`, `checkAuthStatus` |
| auth_tabs.dfy | `AuthTabs` | `switchTab` and the tab buttons' click handler |
| navigation.dfy | `Navigation` | `navigateToPage`, the page titles, the action-card handler |
| dashboard_session.dfy | `DashboardSession` | `checkAuthentication`, `updateUserInterface`, `logout` |
| mobile_demo.dfy | `MobileDemo` | airplane toggle, generate, submit, `switchMobileView` |

The password "abc" scores 1 of 5, because the lowercase test passes (`PasswordStrength.ExampleLowercaseOnly`).

## Model

| member | source | states |
|---|---|---|
| JsValues.ObjectGet | health-supply-locker/js/dashboard.js:128 | reading a key of an object literal yields its own property when present; otherwise the inherited Object.prototype member of that same name, or undefined |
| JsValues.Truthy | health-supply-locker/js/auth.js:216 | the falsy stored values are exactly null, false, 0 and the empty string; a stored user record is truthy |
| JsValues.PropText | health-supply-locker/js/dashboard.js:128 | an own string prints as itself; an inherited member prints as the native source text of its function (`Object` for `constructor`), and `__proto__` prints as "[object Object]" |
| JsValues.OrElse | health-supply-locker/js/app.js:206 | the logical-or fallback replaces undefined and the empty string, keeps a non-empty string, and returns an inherited member unchanged, since it is truthy |
| Storage.Set | health-supply-locker/js/app.js:211-217 | after `set(k, v)`, `get(k, d)` yields v for every default d; every other key keeps its presence and its value |
| Storage.Get | health-supply-locker/js/app.js:219-227 | `get(k, d)` yields the stored value when k is present and the default d when it is absent |
| Storage.GetOrNull | health-supply-locker/js/app.js:219 | an omitted default is null |
| Storage.Remove | health-supply-locker/js/app.js:229-235 | after `remove(k)`, `get(k, d)` yields d for every d; every other key is unchanged |
| PasswordStrength.CheckPasswordStrength | health-supply-locker/js/app.js:92-111 | strength is at most 5; strength plus the number of feedback entries is 5; strength is the number of criteria met and the feedback is the messages of the criteria failed, both per an independent recursive definition over the criteria list |
| PasswordStrength.ContainsMeansSomeChar | health-supply-locker/js/app.js:99-109 | the character-class scan succeeds iff some character of the password belongs to the class, as `/[a-z]/.test` and the others do |
| PasswordStrength.FeedbackExactlyFailures | health-supply-locker/js/app.js:96-109 | a criterion's message is in the feedback iff the password fails that criterion |
| PasswordStrength.FeedbackOrdered | health-supply-locker/js/app.js:96-109 | feedback entries appear in the fixed order length, lowercase, uppercase, number, special, each at most once |
| PasswordStrength.MessagesDistinct | health-supply-locker/js/app.js:97-109 | the five feedback messages are pairwise distinct, so a message identifies its criterion |
| PasswordStrength.StrengthMonotone | health-supply-locker/js/app.js:96-109 | appending characters never lowers the strength and never adds a feedback entry |
| PasswordStrength.MetCountMonotone | health-supply-locker/js/app.js:96-109 | a password meeting every criterion another one meets scores at least as much |
| PasswordStrength.ValidatePassword | health-supply-locker/js/app.js:140-142 | `validatePassword` holds iff the password meets the length criterion of the strength score |
| PasswordStrength.ValidatePasswordIsLengthCriterion | health-supply-locker/js/app.js:96-97 | `validatePassword` holds iff the "At least 8 characters" message is absent from the strength feedback |
| PasswordStrength.StrengthLabel | health-supply-locker/js/app.js:126-127 | the label is the table entry for strengths 0 to 4, and "Very Weak" past the table |
| PasswordStrength.StrengthColor | health-supply-locker/js/app.js:130-131 | the colour is the table entry for strengths 0 to 4, and '#ff6b6b' past the table |
| PasswordStrength.StrongestLooksWeakest | health-supply-locker/js/app.js:121-131 | a password meeting all five criteria gets the label and colour of one meeting none |
| PasswordStrength.MeterFollowsScore | health-supply-locker/js/app.js:123-131 | the corrected meter never shows a weaker label for a higher score, reaches every label, and shows a full score as "Strong" in green |
| PasswordStrength.MeterSeparatesExtremes | health-supply-locker/js/app.js:121-131 | under the corrected meter, a full score and a zero score look different |
| PasswordStrength.ExampleLowercaseOnly | health-supply-locker/js/app.js:92-111 | "abc" scores 1, with the length, uppercase, number and special messages in that order |
| PasswordStrength.ExampleAllCriteria | health-supply-locker/js/app.js:92-131 | "Abcdef1!" scores 5 with no feedback, and is labelled "Very Weak" |
| Email.IndexOf | health-supply-locker/js/app.js:136 | the index of the first occurrence of a character, or the length when there is none |
| Email.ValidateEmail | health-supply-locker/js/app.js:135-138 | accepted iff the text is L + "@" + D + "." + T for non-empty L, D and T with no whitespace and no '@' (the regular expression `^[^\s@]+@[^\s@]+\.[^\s@]+$`) |
| Email.ScanComplete | health-supply-locker/js/app.js:136 | every text matching the pattern passes the left-to-right scan that decides it |
| Email.PatternScan | health-supply-locker/js/app.js:136 | in a matching text, the first '@' ends the local part and the rest is domain, dot and suffix |
| Email.AcceptedHasOneAt | health-supply-locker/js/app.js:136 | an accepted address contains exactly one '@' |
| Email.ShapeWitness | health-supply-locker/js/app.js:136 | every choice of three whitespace-free, '@'-free, non-empty parts gives an accepted address |
| Email.AcceptsPlainAddress | health-supply-locker/js/app.js:135-138 | "jane@clinic.org" is accepted |
| Email.AcceptsDottedDomain | health-supply-locker/js/app.js:135-138 | "a@b.c.d" is accepted: the dot may be any dot after the '@' |
| Email.RejectsMissingDot | health-supply-locker/js/app.js:135-138 | "jane@clinic" is rejected |
| Email.RejectsSecondAt | health-supply-locker/js/app.js:135-138 | "a@b@c.d" is rejected |
| Email.RejectsSpace | health-supply-locker/js/app.js:135-138 | "a b@c.d" is rejected |
| Feedback.ToastIconAsWritten | health-supply-locker/js/app.js:199-207 | the four known types give their icons; an unknown type gives 'info-circle' unless it names an Object.prototype member, which gives that inherited member |
| Feedback.ToastIcon | health-supply-locker/js/app.js:199-207 | success, error, warning and info give their icons, and every other type gives 'info-circle' |
| Feedback.ToastIconLookupDiverges | health-supply-locker/js/app.js:199-207 | the written and intended lookups agree except on the names of Object.prototype members |
| Feedback.ToastIconToString | health-supply-locker/js/app.js:206 | `getToastIcon('toString')` does not yield 'info-circle' |
| Feedback.ShowSpinner | health-supply-locker/js/app.js:145-155 | showing the spinner adds exactly one overlay |
| Feedback.HideSpinner | health-supply-locker/js/app.js:157-162 | hiding removes exactly one overlay when there is one, and does nothing otherwise |
| Feedback.BracketedKeepsOverlays | health-supply-locker/js/auth.js:87-124 | a trace that shows the spinner once, hides it once and touches it nowhere else leaves the overlay count where it started |
| Feedback.NoSpinnerKeepsOverlays | health-supply-locker/js/auth.js:76-84 | a trace that never touches the spinner leaves the overlay count unchanged |
| Quoted.NextQuote | health-supply-locker/js/auth.js:21 | `[^']+` stops at the first quote at or after the start |
| Quoted.FindFrom | health-supply-locker/js/dashboard.js:141 | the search yields the leftmost position where the pattern matches, or reports that it matches nowhere |
| Quoted.Capture | health-supply-locker/js/auth.js:21 | `match(...)` succeeds iff the pattern matches somewhere; the group is the non-empty, quote-free text of the leftmost match |
| Quoted.QuotedName | health-supply-locker/js/auth.js:21 | `/'([^']+)'/` matches iff some pair of quotes encloses a non-empty run without quotes; the capture is the run inside the leftmost such pair, as `match` returns the first match |
| Quoted.PageCallTarget | health-supply-locker/js/dashboard.js:141 | `/navigateToPage\('([^']+)'\)/` matches iff the call text occurs with a non-empty quoted name; the capture is the name of the leftmost occurrence |
| Quoted.LeftmostUnique | health-supply-locker/js/auth.js:21 | the leftmost match is unique |
| Quoted.CaptureOfCall | health-supply-locker/js/dashboard.js:141 | the capture of text written as prefix, opening, name, closing, suffix is the name |
| Quoted.QuotedNameOfCall | health-supply-locker/js/auth.js:21 | `switchTab('name')` yields `name` |
| Quoted.PageCallTargetOfCall | health-supply-locker/js/dashboard.js:141 | `navigateToPage('name')` yields `name` |
| Session.FirstFailureIsFirst | health-supply-locker/js/auth.js:140-163 | a chain of checks passes iff every check passes; otherwise its message is that of a failing check all of whose predecessors pass |
| Session.LoginValidation | health-supply-locker/js/auth.js:76-84 | login validation is the first failure of the chain email then password |
| Session.SignupValidation | health-supply-locker/js/auth.js:140-163 | signup validation is the first failure of the chain names, email, length, match, terms |
| Session.CharAt0 | health-supply-locker/js/auth.js:180 | `charAt(0)` is the first character, or "" for the empty string |
| Session.Avatar | health-supply-locker/js/auth.js:180 | the initials are the first characters of both names: the two first letters when both are non-empty, the first letter of the other name when one is empty, and at most two characters |
| Session.HandleLogin | health-supply-locker/js/auth.js:68-125 | a bad email or empty password shows its error and changes nothing; a rejected call shows the failure between spinner show and hide; success writes the demo user with the submitted email, id 1 and avatar 'JD', sets isLoggedIn, writes rememberMe only when checked (otherwise keeps any old value), leaves all other keys, and ends with the redirect to the dashboard |
| Session.HandleSignup | health-supply-locker/js/auth.js:128-197 | the first failing check's message is shown and nothing is stored; success writes the new user and isLoggedIn, leaves every other key, and shows the success modal between spinner show and hide |
| Session.SignupAvatar | health-supply-locker/js/auth.js:173-183 | after a valid signup, the stored avatar is exactly the two initials, the role is 'Healthcare Provider', verified is false, and the email and organization are the submitted ones |
| Session.SignupMessageOrder | health-supply-locker/js/auth.js:140-163 | each of the five signup messages is shown iff its own check fails and every earlier check passes (names, email, length, match, terms); signup passes iff every check passes |
| Session.HandlersPairSpinner | health-supply-locker/js/auth.js:87-124 | each spinner shown after validation is hidden exactly once on both the resolved and the rejected path; validation failures never touch it |
| Session.CheckAuthStatus | health-supply-locker/js/auth.js:212-220 | the auth page forwards to the dashboard iff an isLoggedIn value is stored and truthy and a currentUser value is stored and truthy; the defaults (false, null) never forward |
| Session.SuccessfulSessionRedirects | health-supply-locker/js/auth.js:212-220 | after a successful login or signup the auth-page guard redirects; a failed attempt leaves the guard's answer unchanged |
| AuthTabs.SwitchTab | health-supply-locker/js/auth.js:27-39 | with both the button and the form present, exactly that button and `tab-form` are active afterwards; a missing button or form throws, with the partial changes made before the throw kept |
| AuthTabs.SwitchTabIdempotent | health-supply-locker/js/auth.js:27-39 | switching twice to the same tab is switching once, and a successful switch leaves one button and one form active |
| AuthTabs.TabClicked | health-supply-locker/js/auth.js:19-23 | a click switches to the quoted name in the attribute, or throws without change when there is none |
| AuthTabs.ClickSwitchesToWrittenTab | health-supply-locker/js/auth.js:21-22 | clicking a button written `switchTab('t')` switches to t |
| AuthTabs.FormIdInjective | health-supply-locker/js/auth.js:38 | the form id `${tabName}-form` determines the tab name: two tabs with the same form id are the same tab |
| AuthTabs.LoginSignupExclusive | health-supply-locker/js/auth.js:27-39 | choosing a tab whose button and form exist shows its form and leaves every other tab's form and button inactive, since distinct tab names give distinct form ids (`AuthTabs.FormIdInjective`); on the auth page, "login" against "signup" |
| Navigation.TitleAsWritten | health-supply-locker/js/dashboard.js:116-128 | a listed page gives its title, and an unlisted one gives 'Dashboard' unless it names an Object.prototype member |
| Navigation.TitleFor | health-supply-locker/js/dashboard.js:116-128 | a listed page gives its table title and every other page gives 'Dashboard' |
| Navigation.TitleLookupDiverges | health-supply-locker/js/dashboard.js:128 | the written and intended title lookups agree except on the names of Object.prototype members |
| Navigation.TitleOfConstructor | health-supply-locker/js/dashboard.js:128 | `navigateToPage('constructor')` would not title the page 'Dashboard' |
| Navigation.WrittenTitle | health-supply-locker/js/dashboard.js:116-128 | the text the written lookup puts in the title: the intended title for every name outside Object.prototype, and the source text of `Object` for "constructor" |
| Navigation.NavigateToPage | health-supply-locker/js/dashboard.js:95-131 | at most one nav item (the one for the page) and at most one page block (`page-page`) is active, each iff it exists; the title changes only when the page block and the title element exist, and then becomes the text of `pageTitles[pageName]` with the 'Dashboard' fallback, inherited members included |
| Navigation.NavigateTitleIntended | health-supply-locker/js/dashboard.js:111-130 | for a page name outside Object.prototype whose block exists, navigation writes the table title or 'Dashboard' |
| Navigation.NavigateToConstructor | health-supply-locker/js/dashboard.js:128 | with a `constructor-page` block, navigating to "constructor" titles the page "function Object() { [native code] }" instead of 'Dashboard' |
| Navigation.NavigateIdempotent | health-supply-locker/js/dashboard.js:95-131 | navigating twice to the same page is navigating once |
| Navigation.NavigateExamples | health-supply-locker/js/dashboard.js:111-130 | a worked example: "supply-chain" gives the title 'Supply Chain Management'; an unknown page leaves no block active and the title unchanged |
| Navigation.NavigationForgetsHistory | health-supply-locker/js/dashboard.js:95-131 | after a run of navigations, the active items are those of the last page alone, and the title is that of the last page whose block exists |
| Navigation.NavigateAllSnoc | health-supply-locker/js/dashboard.js:95-131 | a run ending in a page is the run before it followed by that navigation |
| Navigation.ActionCardClick | health-supply-locker/js/dashboard.js:136-144 | a missing or empty attribute does nothing, an attribute without the call pattern throws, and otherwise the card navigates to the captured page |
| Navigation.CardNavigatesToWrittenPage | health-supply-locker/js/dashboard.js:139-142 | a card written `navigateToPage('p')` navigates to p |
| DashboardSession.PanelFor | health-supply-locker/js/dashboard.js:33-60 | the greeting is "Welcome, " + (firstName or 'User'); both avatars are the avatar or 'U'; the sidebar name is first and last name with undefined printed; the role is the role or 'User' |
| DashboardSession.CheckAuthentication | health-supply-locker/js/dashboard.js:18-31 | the dashboard sends the visitor to login iff the login flag or the stored user is falsy, and otherwise fills the panel from the stored user |
| DashboardSession.GuardsComplement | health-supply-locker/js/dashboard.js:18-26 | the dashboard keeps exactly the visitors the auth page forwards to it |
| DashboardSession.DashboardAfterLogin | health-supply-locker/js/dashboard.js:33-60 | after a login, the dashboard greets "Welcome, User" and shows the sidebar name "undefined undefined", because the demo user has no first or last name |
| DashboardSession.DashboardAfterSignup | health-supply-locker/js/dashboard.js:33-60 | after a signup, the dashboard greets the first name and shows the full name and the initials |
| DashboardSession.Logout | health-supply-locker/js/dashboard.js:309-321 | logout removes currentUser, isLoggedIn and rememberMe, keeps every other key, shows the info toast and then loads the landing page |
| DashboardSession.LogoutEndsSession | health-supply-locker/js/dashboard.js:309-321 | after logout both guards treat the visitor as signed out, and logging out again changes nothing |
| DashboardSession.LoginThenLogout | health-supply-locker/js/dashboard.js:309-321 | a login followed by logout leaves the same store as logout alone |
| MobileDemo.Toggle | health-supply-locker/js/dashboard.js:366-388 | going offline disables submit and the card, and shows the connect warning iff a proof exists (otherwise clears the status); going online with a proof enables both and clears the status; going online without one changes nothing else |
| MobileDemo.Generate | health-supply-locker/js/dashboard.js:392-422 | a click on the enabled button records the proof and disables the button; online it enables submit, offline it shows the warning and leaves submit disabled |
| MobileDemo.Submit | health-supply-locker/js/dashboard.js:426-437 | a click on the enabled button disables it and sets the status to the confirmed transaction; a disabled button ignores clicks |
| MobileDemo.StepPreserves | health-supply-locker/js/dashboard.js:366-437 | every handler keeps the rule: submit or card enabled only with a proof online, the warning only with a proof offline, a confirmation only with a proof, generate spent iff a proof exists; a proof is never lost |
| MobileDemo.RunPreserves | health-supply-locker/js/dashboard.js:366-437 | any sequence of user actions from a consistent state keeps the rule and keeps the proof |
| MobileDemo.SubmitNeedsProofAndConnection | health-supply-locker/js/dashboard.js:411-421 | from the loaded page, whatever the user does, submit is enabled only with a proof while online |
| MobileDemo.OfflineProofFlow | health-supply-locker/js/dashboard.js:366-437 | generating offline shows the warning with submit disabled; reconnecting enables submit and clears it; submitting then confirms |
| MobileDemo.ViewNamed | health-supply-locker/js/dashboard.js:450-459 | a name selects a view only if it is that view's name |
| MobileDemo.SwitchMobileView | health-supply-locker/js/dashboard.js:441-460 | the views shown are exactly the active nav buttons, a view is shown iff its name was given, and at most one is shown |
| MobileDemo.ViewNameRoundTrip | health-supply-locker/js/dashboard.js:450-459 | each view's name selects it, and only "home", "delivery" and "credentials" select any view |
| MobileDemo.SwitchForgetsHistory | health-supply-locker/js/dashboard.js:441-460 | the views shown depend only on the last name chosen |

## Left out

- Page markup: the HTML pages are not part of this model. `MobileDemo.Initial` assumes the mock-up loads online, without a proof, with generate enabled and with the submit card and button disabled.
- DOM rendering is reduced to the abstract records above: innerHTML templates, styles, icon opacity, the terminal log lines, status colours and button captions.
- Elements that may be missing: `updateUserInterface` writes each text only if its element exists, and `DashboardSession.PanelFor` computes the texts as if every element were present.
- Timing: timer durations, toast auto-removal, and the delays inside `simulateApiCall` and the demo sequences are collapsed into single steps. So are the steps of the generate and submit handlers; the model has no interleaving of a toggle with a running generate or submit.
- `simulateApiCall` always resolves in the source. Its outcome is a parameter (`Session.ApiOutcome`) so that the `catch` path is visible too.
- `Date.now()` and `toISOString()` are the `Session.Clock` parameter.
- `localStorage` and JSON text are abstracted away: a `Storage.Store` holds parsed values, and serialisation is the identity. Stored text that `JSON.parse` rejects cannot be represented, so `get`'s `catch` path for it (which returns the default) is not modelled. Neither is `set`'s `catch` path, taken when `JSON.stringify` throws or the browser refuses the write, nor a failing `getItem` or `removeItem`.
- Strings are sequences of Unicode scalar values, not UTF-16 code units. `length`, `charAt(0)` and the regular expressions differ from the model only on characters outside the Basic Multilingual Plane.
- AuthTabs.SwitchTab: requires a tab name that is safe inside the double-quoted attribute selector; the model does not cover CSS selector parsing of names with quotes, backslashes, line breaks or NUL.
- AuthTabs.TabClicked: carries the same selector requirement for the name it extracts; the model assumes every tab button carries an `onclick` attribute, so a missing one (which would throw) is not modelled.
- Navigation.NavigateToPage: carries the same selector requirement on the page name.
- Navigation.ActionCardClick: carries the same selector requirement for the name it extracts.
- The character set of `\s` in `Email.IsJsWhitespace` is a hand-written list: ECMAScript's WhiteSpace and LineTerminator code points, with the space separators (category Zs) of Unicode 6.3 and later. A later Unicode version that adds a space separator is not followed.
- JsValues.PropText: prints a native function in the form `function name() { [native code] }`. ECMAScript fixes only the shape of that text (its `NativeFunction` syntax), and browsers may differ in spacing.
- `autoFillLogin`, `animateNumber`, scroll effects, the mobile menu and `togglePassword` are not modelled: they are DOM toggling, floating point or canned data with no logic.
- `loadDashboardData` and `refreshDashboard` are not modelled. Their statistics, activity and system-status parts are canned data. But they also decide when the mock-up's handlers are attached: `loadDashboardData` calls `initializeMobileDemo` only if the verification page is active at that moment (health-supply-locker/js/dashboard.js:160-162), and `navigateToPage` never calls it. So a visitor who reaches the verification page by navigation gets no handlers at all.
- MobileDemo.Toggle: the model assumes the mock-up's handlers are attached exactly once, so there is one `proofGenerated` flag. In the source, each `refreshDashboard` while the verification page is active runs `initializeMobileDemo` again (health-supply-locker/js/dashboard.js:324-332, 347) and stacks a second listener set with its own flag, still false. After a proof, a refresh and a switch to offline, the first listener shows the warning and the second then clears the status, so the warning `Toggle` promises does not appear. The second set can never gain a proof, because generate is already disabled, so the state persists. Modelling that needs a list of listener sets with their own flags, which the single-machine model leaves out.
- The mock-up's location-proof and chain-verification buttons are not modelled: they print canned terminal lines and share no state with the proof/submit machine.
- `showModal` and `hideModal` are not modelled beyond the `ModalShown` effect, and the modal ids are opaque.

## Findings

| source | as written | input that shows it | evidently intended | confidence | as-written member | corrected member |
|---|---|---|---|---|---|---|
| health-supply-locker/js/app.js:126-131 | the meter indexes five labels and colours with a score from 0 to 5, so a score of 5 reads past both tables and falls back to the weakest entry | "Abcdef1!" scores 5 and shows "Very Weak" in red on a full bar | the meter rises with the score, and a full score shows "Strong" in green | high; not executed | PasswordStrength.StrongestLooksWeakest | PasswordStrength.MeterFollowsScore |
| health-supply-locker/js/app.js:199-207 | the icon table is an object literal, and indexing it also finds the members every object inherits from Object.prototype | `getToastIcon('toString')` yields a function instead of 'info-circle' | every type outside the table gives 'info-circle' | low; latent, since every caller passes a known type; not executed | Feedback.ToastIconToString | Feedback.ToastIcon |
| health-supply-locker/js/dashboard.js:116-128 | the page-title table has the same inherited-member lookup | `navigateToPage('constructor')` with a `constructor-page` block sets the title to a function's text | every page outside the table is titled 'Dashboard' | low; latent, since no page of that name exists; not executed | Navigation.NavigateToConstructor | Navigation.TitleFor |

For the meter, the correction gives scores 1 to 5 the five labels in order and lets a score of 0 share "Very Weak" (`PasswordStrength.MeterIndex`). It is one of the readings the tables allow.

=== FILE: auth_tabs.dfy ===
/**
 * The login/signup tab switch of the auth page: `switchTab(tabName)` and the
 * click handler that recovers the tab name from the button's inline
 * `onclick` text.
 */
module AuthTabs {
  import opened JsValues
  import Quoted

  /** The tab buttons and forms of the page. A button is identified by the
      tab name in its `onclick="switchTab('name')"` attribute, a form by its
      id. `handlers` and `formIds` are what exists; the `active` sets are the
      elements carrying the "active" class. */
  datatype TabView = TabView(
    handlers: set<string>, activeButtons: set<string>,
    formIds: set<string>, activeForms: set<string>)

  /** The view after a handler, and whether the handler threw a TypeError
      (a lookup that found no element). Changes made before the throw
      stay. */
  datatype TabSwitch = TabSwitch(view: TabView, threw: bool)

  function FormId(tab: string): string {
    tab + "-form"
  }

  /** `switchTab(tabName)`. */
  function SwitchTab(v: TabView, tab: string): (r: TabSwitch)
    requires SelectorSafe(tab)
    ensures r.view.handlers == v.handlers && r.view.formIds == v.formIds
    ensures !r.threw <==> tab in v.handlers && FormId(tab) in v.formIds
    ensures !r.threw ==> r.view.activeButtons == {tab} && r.view.activeForms == {FormId(tab)}
    ensures tab !in v.handlers ==> r.view.activeButtons == {} && r.view.activeForms == v.activeForms
    ensures tab in v.handlers && FormId(tab) !in v.formIds ==>
      r.view.activeButtons == {tab} && r.view.activeForms == {}
  {
    var buttonsCleared := v.(activeButtons := {});
    if tab !in v.handlers then TabSwitch(buttonsCleared, true)
    else
      var buttonSet := buttonsCleared.(activeButtons := {tab});
      var formsCleared := buttonSet.(activeForms := {});
      if FormId(tab) !in v.formIds then TabSwitch(formsCleared, true)
      else TabSwitch(formsCleared.(activeForms := {FormId(tab)}), false)
  }

  /** Switching to the tab already shown changes nothing, and a successful
      switch leaves exactly one button and one form active, both belonging to
      the tab. */
  lemma SwitchTabIdempotent(v: TabView, tab: string)
    requires SelectorSafe(tab)
    ensures SwitchTab(SwitchTab(v, tab).view, tab) == SwitchTab(v, tab)
    ensures !SwitchTab(v, tab).threw ==>
      |SwitchTab(v, tab).view.activeButtons| == 1 && |SwitchTab(v, tab).view.activeForms| == 1
  {
  }

  /** The click listener: `this.getAttribute('onclick').match(/'([^']+)'/)[1]`
      then `switchTab`. A null match throws before anything changes. */
  function TabClicked(v: TabView, onclick: string): (r: TabSwitch)
    requires Quoted.QuotedName(onclick).Some? ==> SelectorSafe(Quoted.QuotedName(onclick).value)
    ensures Quoted.QuotedName(onclick).None? ==> r == TabSwitch(v, true)
    ensures Quoted.QuotedName(onclick).Some? ==> r == SwitchTab(v, Quoted.QuotedName(onclick).value)
  {
    match Quoted.QuotedName(onclick)
    case None => TabSwitch(v, true)
    case Some(tab) => SwitchTab(v, tab)
  }

  /** Clicking the button whose attribute is `switchTab('tab')` switches to
      `tab`: the name the handler recovers is the name the markup wrote. */
  lemma ClickSwitchesToWrittenTab(v: TabView, tab: string)
    requires Quoted.NoQuote(tab) && |tab| > 0 && SelectorSafe(tab)
    ensures Quoted.QuotedName("switchTab('" + tab + "')") == Some(tab)
    ensures TabClicked(v, "switchTab('" + tab + "')") == SwitchTab(v, tab)
  {
    var onclick := "switchTab('" + tab + "')";
    Quoted.QuotedNameOfCall(tab);
    ClickByName(v, onclick, tab);
  }

  lemma ClickByName(v: TabView, onclick: string, tab: string)
    requires Quoted.QuotedName(onclick) == Some(tab) && SelectorSafe(tab)
    ensures TabClicked(v, onclick) == SwitchTab(v, tab)
  {
  }

  /** Different tab names give different form ids, so a form belongs to
      exactly one tab. */
  lemma FormIdInjective(a: string, b: string)
    requires FormId(a) == FormId(b)
    ensures a == b
  {
    assert |a| == |b|;
    assert a == FormId(a)[..|a|];
  }

  /** A click on one tab, with the tab and its form present, shows that
      tab's form and hides every other tab's form; on the auth page this is
      "login" against "signup". */
  lemma LoginSignupExclusive(v: TabView, tab: string, other: string)
    requires SelectorSafe(tab) && tab != other
    requires tab in v.handlers && FormId(tab) in v.formIds
    ensures var r := SwitchTab(v, tab);
      && !r.threw
      && FormId(tab) in r.view.activeForms
      && FormId(other) !in r.view.activeForms
      && other !in r.view.activeButtons
  {
    if FormId(other) == FormId(tab) {
      FormIdInjective(other, tab);
    }
  }
}

=== FILE: dashboard_session.dfy ===
/**
 * The dashboard's side of the session: the authentication guard that runs
 * when the dashboard loads, the user panel it fills from the stored user,
 * and logout.
 */
module DashboardSession {
  import opened JsValues
  import opened Storage
  import opened Feedback
  import Session

  /** The texts the dashboard writes into the header and sidebar. */
  datatype UserPanel = UserPanel(
    greeting: string, headerAvatar: string,
    sidebarName: string, sidebarRole: string, sidebarAvatar: string)

  /** What loading the dashboard does. */
  datatype Guard = ToLogin | Welcome(panel: UserPanel)

  /** `${x}` in a template literal: an undefined property prints as
      "undefined". */
  function Interpolate(field: Option<string>): (text: string)
    ensures field.Some? ==> text == field.value
    ensures field.None? ==> text == "undefined"
  {
    match field
    case Some(s) => s
    case None => "undefined"
  }

  /** `x || fallback` on a property read: undefined or "" gives the
      fallback. */
  function FieldOr(field: Option<string>, fallback: string): (text: string)
    ensures field.Some? && field.value != [] ==> text == field.value
    ensures field.None? || field.value == [] ==> text == fallback
  {
    if field.Some? && field.value != [] then field.value else fallback
  }

  /** `updateUserInterface(user)`. */
  function PanelFor(user: Value): (p: UserPanel)
    ensures p.headerAvatar == p.sidebarAvatar
    ensures p.greeting == "Welcome, " + FieldOr(Field(user, "firstName"), "User")
    ensures p.headerAvatar == FieldOr(Field(user, "avatar"), "U")
    ensures p.sidebarRole == FieldOr(Field(user, "role"), "User")
    ensures p.sidebarName == Interpolate(Field(user, "firstName")) + " " + Interpolate(Field(user, "lastName"))
  {
    var avatar := FieldOr(Field(user, "avatar"), "U");
    UserPanel(
      "Welcome, " + FieldOr(Field(user, "firstName"), "User"),
      avatar,
      Interpolate(Field(user, "firstName")) + " " + Interpolate(Field(user, "lastName")),
      FieldOr(Field(user, "role"), "User"),
      avatar)
  }

  /** `checkAuthentication()`: without a truthy login flag and a truthy
      stored user the dashboard sends the visitor to the login page. */
  function CheckAuthentication(st: Store): (g: Guard)
    ensures g.ToLogin? <==>
      !Truthy(Get(st, Session.IsLoggedInKey, Bool(false))) || !Truthy(GetOrNull(st, Session.CurrentUserKey))
    ensures g.Welcome? ==> g.panel == PanelFor(st[Session.CurrentUserKey])
  {
    var isLoggedIn := Get(st, Session.IsLoggedInKey, Bool(false));
    var currentUser := GetOrNull(st, Session.CurrentUserKey);
    if !Truthy(isLoggedIn) || !Truthy(currentUser) then ToLogin
    else Welcome(PanelFor(currentUser))
  }

  /** The two guards agree: the login page forwards to the dashboard exactly
      when the dashboard lets the visitor stay, so neither page sends the
      visitor back and forth. */
  lemma GuardsComplement(st: Store)
    ensures Session.CheckAuthStatus(st) <==> CheckAuthentication(st).Welcome?
  {
  }

  /** The dashboard after a login: the demo record has no first or last
      name, so the greeting falls back to "User" and the sidebar name reads
      "undefined undefined". */
  lemma DashboardAfterLogin(st: Store, f: Session.LoginForm, clock: Session.Clock)
    requires Session.LoginValidation(f).None?
    ensures CheckAuthentication(Session.HandleLogin(st, f, Session.Resolved, clock).store)
      == Welcome(UserPanel("Welcome, User", "JD", "undefined undefined", Session.ProviderRole, "JD"))
  {
    var s := Session.HandleLogin(st, f, Session.Resolved, clock).store;
    var u := User(Session.DemoUserFor(f.email, clock));
    assert GetOrNull(s, Session.CurrentUserKey) == u;
    assert Get(s, Session.IsLoggedInKey, Bool(false)) == Bool(true);
    PanelOfDemoUser(f.email, clock);
  }

  lemma PanelOfDemoUser(email: string, clock: Session.Clock)
    ensures PanelFor(User(Session.DemoUserFor(email, clock)))
      == UserPanel("Welcome, User", "JD", "undefined undefined", Session.ProviderRole, "JD")
  {
    var u := User(Session.DemoUserFor(email, clock));
    assert Field(u, "firstName") == None && Field(u, "lastName") == None;
    assert Field(u, "avatar") == Some("JD") && Field(u, "role") == Some(Session.ProviderRole);
  }

  /** The dashboard after a signup greets the new user by first name and
      shows the full name and the initials. */
  lemma DashboardAfterSignup(st: Store, f: Session.SignupForm, clock: Session.Clock)
    requires Session.SignupValidation(f).None?
    ensures CheckAuthentication(Session.HandleSignup(st, f, Session.Resolved, clock).store)
      == Welcome(UserPanel("Welcome, " + f.firstName, [f.firstName[0], f.lastName[0]],
                           f.firstName + " " + f.lastName, Session.ProviderRole,
                           [f.firstName[0], f.lastName[0]]))
  {
    var s := Session.HandleSignup(st, f, Session.Resolved, clock).store;
    var u := User(Session.NewUserFor(f, clock));
    assert GetOrNull(s, Session.CurrentUserKey) == u;
    assert Get(s, Session.IsLoggedInKey, Bool(false)) == Bool(true);
    assert Field(u, "firstName") == Some(f.firstName) && Field(u, "lastName") == Some(f.lastName);
    assert Field(u, "avatar") == Some([f.firstName[0], f.lastName[0]]);
    assert Field(u, "role") == Some(Session.ProviderRole);
  }

  const LogoutMessage := "Logged out successfully"

  /** `logout()`: the three session keys are removed, an info toast is
      shown, and the landing page is loaded (after a delay, collapsed
      here). */
  function Logout(st: Store): (r: Session.HandlerResult)
    ensures forall k :: k in Session.SessionKeys ==> k !in r.store
    ensures Session.SameOutside(r.store, st, Session.SessionKeys)
    ensures r.effects == [Toast(LogoutMessage, "info"), Redirect("../index.html")]
  {
    var a := Remove(st, Session.CurrentUserKey);
    var b := Remove(a, Session.IsLoggedInKey);
    var c := Remove(b, Session.RememberMeKey);
    Session.HandlerResult(c, [Toast(LogoutMessage, "info"), Redirect("../index.html")])
  }

  /** After logout both guards treat the visitor as signed out, whatever
      session came before; logging out twice is logging out once. */
  lemma LogoutEndsSession(st: Store)
    ensures !Session.CheckAuthStatus(Logout(st).store)
    ensures CheckAuthentication(Logout(st).store) == ToLogin
    ensures Logout(Logout(st).store).store == Logout(st).store
  {
  }

  /** A login followed by logout leaves only what was stored under other
      keys. */
  lemma LoginThenLogout(st: Store, f: Session.LoginForm, clock: Session.Clock)
    ensures Logout(Session.HandleLogin(st, f, Session.Resolved, clock).store).store == Logout(st).store
  {
    var s := Session.HandleLogin(st, f, Session.Resolved, clock).store;
    var a := Logout(s).store;
    var b := Logout(st).store;
    assert forall k :: k in a <==> k in b;
    assert forall k :: k in a ==> a[k] == b[k];
  }
}

=== FILE: email.dfy ===
/**
 * `validateEmail`: the regular expression `^[^\s@]+@[^\s@]+\.[^\s@]+$`,
 * stated as a split of the string and decided by a left-to-right scan.
 */
module Email {

  /** The characters JavaScript's `\s` matches: the WhiteSpace and
      LineTerminator code points of ECMAScript. */
  predicate IsJsWhitespace(c: char) {
    || c == '\t' || c == '\n' || c == '\U{B}' || c == '\U{C}' || c == '\r'
    || c == ' ' || c == '\U{A0}' || c == '\U{1680}'
    || ('\U{2000}' <= c <= '\U{200A}')
    || c == '\U{2028}' || c == '\U{2029}' || c == '\U{202F}' || c == '\U{205F}'
    || c == '\U{3000}' || c == '\U{FEFF}'
  }

  /** A character of the class `[^\s@]`. */
  predicate PartChar(c: char) {
    !IsJsWhitespace(c) && c != '@'
  }

  /** A string matched by `[^\s@]+`. */
  ghost predicate Part(s: string) {
    |s| > 0 && forall i :: 0 <= i < |s| ==> PartChar(s[i])
  }

  /** `s` splits as local part, "@", domain, ".", top-level part. The domain
      and the top-level part may themselves contain dots. */
  ghost predicate EmailShape(s: string, local: string, domain: string, tld: string) {
    Part(local) && Part(domain) && Part(tld) && s == local + "@" + domain + "." + tld
  }

  /** The language of the regular expression. */
  ghost predicate MatchesEmailPattern(s: string) {
    exists local, domain, tld :: EmailShape(s, local, domain, tld)
  }

  /** Index of the first occurrence of `c` in `s`, or `|s|` when absent. */
  function IndexOf(s: string, c: char): (i: nat)
    ensures i <= |s|
    ensures i < |s| ==> s[i] == c
    ensures forall k :: 0 <= k < i ==> s[k] != c
  {
    if s == [] then 0
    else if s[0] == c then 0
    else 1 + IndexOf(s[1..], c)
  }

  predicate NoWhitespace(s: string) {
    forall i :: 0 <= i < |s| ==> !IsJsWhitespace(s[i])
  }

  /** The left-to-right decision procedure: no whitespace anywhere; a first
      '@' that is not the first character and is the only '@'; and after it,
      a '.' that is neither the first nor the last character of the
      remainder. */
  predicate Scan(s: string) {
    var a := IndexOf(s, '@');
    if a == 0 || a == |s| then false
    else
      var rest := s[a + 1..];
      && NoWhitespace(s)
      && IndexOf(rest, '@') == |rest|
      && |rest| >= 3
      && IndexOf(rest[1..|rest| - 1], '.') < |rest| - 2
  }

  /** `validateEmail(email)`. */
  function ValidateEmail(s: string): (ok: bool)
    ensures ok <==> MatchesEmailPattern(s)
  {
    if Scan(s) then
      ScanSound(s);
      true
    else
      ScanComplete(s);
      false
  }

  /** Every string the scan accepts has the pattern's split. */
  lemma ScanSound(s: string)
    requires Scan(s)
    ensures MatchesEmailPattern(s)
  {
    var a := IndexOf(s, '@');
    var rest := s[a + 1..];
    var j := 1 + IndexOf(rest[1..|rest| - 1], '.');
    var local, domain, tld := s[..a], rest[..j], rest[j + 1..];
    assert rest[j] == '.';
    assert rest == domain + "." + tld;
    assert s == local + "@" + domain + "." + tld;
    forall i | 0 <= i < |domain| ensures PartChar(domain[i]) {
      assert domain[i] == s[a + 1 + i];
    }
    forall i | 0 <= i < |tld| ensures PartChar(tld[i]) {
      assert tld[i] == s[a + 1 + j + 1 + i];
    }
    assert EmailShape(s, local, domain, tld);
  }

  /** The scan accepts every string of the pattern. */
  lemma ScanComplete(s: string)
    ensures MatchesEmailPattern(s) ==> Scan(s)
  {
    if !MatchesEmailPattern(s) {
      return;
    }
    var local, domain, tld :| EmailShape(s, local, domain, tld);
    PatternScan(s, local, domain, tld);
    assert s[|local| + 1..] == domain + "." + tld;
  }

  /** The scan's view of a string of the pattern. */
  lemma PatternScan(s: string, local: string, domain: string, tld: string)
    requires EmailShape(s, local, domain, tld)
    ensures IndexOf(s, '@') == |local|
    ensures NoWhitespace(s)
    ensures s[|local| + 1..] == domain + "." + tld
    ensures IndexOf(domain + "." + tld, '@') == |domain + "." + tld|
    ensures IndexOf((domain + "." + tld)[1..|domain| + 1 + |tld| - 1], '.') < |domain| + |tld| - 1
  {
    var rest := domain + "." + tld;
    assert s == local + "@" + rest;
    assert s[|local|] == '@';
    forall i | 0 <= i < |s| ensures !IsJsWhitespace(s[i]) {
      if i < |local| {
        assert s[i] == local[i];
      } else if i > |local| {
        assert s[i] == rest[i - |local| - 1];
        if i - |local| - 1 < |domain| {
          assert rest[i - |local| - 1] == domain[i - |local| - 1];
        } else if i - |local| - 1 > |domain| {
          assert rest[i - |local| - 1] == tld[i - |local| - 1 - |domain| - 1];
        }
      }
    }
    forall k | 0 <= k < |rest| ensures rest[k] != '@' {
      if k < |domain| {
        assert rest[k] == domain[k];
      } else if k > |domain| {
        assert rest[k] == tld[k - |domain| - 1];
      }
    }
    var inner := rest[1..|rest| - 1];
    assert inner[|domain| - 1] == '.';
  }

  /** Every accepted address holds exactly one '@'; in particular a string
      without '@' is rejected. */
  lemma AcceptedHasOneAt(s: string)
    requires ValidateEmail(s)
    ensures multiset(s)['@'] == 1
  {
    var local, domain, tld :| EmailShape(s, local, domain, tld);
    assert s == local + ("@" + (domain + ("." + tld)));
    assert '@' !in local && '@' !in domain && '@' !in tld;
    assert multiset(s) == multiset(local) + multiset{'@'} + multiset(domain) + multiset{'.'} + multiset(tld);
  }

  lemma ShapeWitness(local: string, domain: string, tld: string)
    requires Part(local) && Part(domain) && Part(tld)
    ensures ValidateEmail(local + "@" + domain + "." + tld)
  {
    assert EmailShape(local + "@" + domain + "." + tld, local, domain, tld);
  }

  /** Example: an ordinary address is accepted. */
  lemma AcceptsPlainAddress()
    ensures ValidateEmail("jane@clinic.org")
  {
    ShapeWitness("jane", "clinic", "org");
    assert "jane" + "@" + "clinic" + "." + "org" == "jane@clinic.org";
  }

  /** Example: the domain part may itself contain dots. */
  lemma AcceptsDottedDomain()
    ensures ValidateEmail("a@b.c.d")
  {
    ShapeWitness("a", "b.c", "d");
    assert "a" + "@" + "b.c" + "." + "d" == "a@b.c.d";
  }

  /** Example: a string with no '.' after the '@' is rejected. */
  lemma RejectsMissingDot()
    ensures !ValidateEmail("jane@clinic")
  {
    var s := "jane@clinic";
    assert IndexOf(s, '@') == 4;
    assert s[5..] == "clinic";
    assert "clinic"[1..5] == "lini";
    assert IndexOf("lini", '.') == 4;
    assert !Scan(s);
  }

  /** Example: a second '@' is rejected. */
  lemma RejectsSecondAt()
    ensures !ValidateEmail("a@b@c.d")
  {
    var s := "a@b@c.d";
    assert IndexOf(s, '@') == 1;
    assert s[2..] == "b@c.d";
    assert IndexOf("b@c.d", '@') == 1;
    assert !Scan(s);
  }

  /** Example: embedded whitespace is rejected. */
  lemma RejectsSpace()
    ensures !ValidateEmail("a b@c.d")
  {
    assert !Scan("a b@c.d") by {
      assert IsJsWhitespace("a b@c.d"[1]);
    }
  }
}

=== FILE: feedback.dfy ===
/**
 * The notification layer: the toast icon table, the loading spinner as a
 * count of overlays on the page, and the ordered trace of visible effects an
 * event handler produces.
 */
module Feedback {
  import opened JsValues

  const ToastIcons: map<string, string> := map[
    "success" := "check-circle",
    "error" := "exclamation-circle",
    "warning" := "exclamation-triangle",
    "info" := "info-circle"
  ]

  /** `getToastIcon(type)` exactly as written: `icons[type] || 'info-circle'`
      on an object literal, so a type naming an Object.prototype member
      reads that inherited member. */
  function ToastIconAsWritten(kind: string): (r: Prop)
    ensures kind in ToastIcons ==> r == Own(ToastIcons[kind])
    ensures kind !in ToastIcons && kind !in ObjectPrototypeMembers ==> r == Own("info-circle")
    ensures kind !in ToastIcons && kind in ObjectPrototypeMembers ==> r == Inherited(kind)
  {
    OrElse(ObjectGet(ToastIcons, kind), "info-circle")
  }

  /** `getToastIcon(type)` as intended: the four known types map to their
      icons and every other type to 'info-circle'. */
  function ToastIcon(kind: string): (icon: string)
    ensures kind == "success" ==> icon == "check-circle"
    ensures kind == "error" ==> icon == "exclamation-circle"
    ensures kind == "warning" ==> icon == "exclamation-triangle"
    ensures kind == "info" ==> icon == "info-circle"
    ensures kind !in {"success", "error", "warning"} ==> icon == "info-circle"
  {
    if kind in ToastIcons then ToastIcons[kind] else "info-circle"
  }

  /** The written lookup and the intended one agree on every type except the
      names of Object.prototype members, where the written one yields the
      inherited function (a truthy non-string) instead of 'info-circle'. */
  lemma ToastIconLookupDiverges(kind: string)
    ensures kind !in ObjectPrototypeMembers ==> ToastIconAsWritten(kind) == Own(ToastIcon(kind))
    ensures kind in ObjectPrototypeMembers ==>
      ToastIconAsWritten(kind) == Inherited(kind) && ToastIcon(kind) == "info-circle"
  {
  }

  /** A concrete input: `getToastIcon('toString')`. */
  lemma ToastIconToString()
    ensures ToastIconAsWritten("toString") != Own(ToastIcon("toString"))
  {
    assert "toString" in ObjectPrototypeMembers;
  }

  /** `showSpinner()`: one more overlay on the page. */
  function ShowSpinner(overlays: nat): (r: nat)
    ensures r > 0
    ensures r - 1 == overlays
  {
    overlays + 1
  }

  /** `hideSpinner()`: removes the first overlay if there is one. */
  function HideSpinner(overlays: nat): (r: nat)
    ensures overlays == 0 ==> r == 0
    ensures overlays > 0 ==> r + 1 == overlays
  {
    if overlays == 0 then 0 else overlays - 1
  }

  /** What a handler makes visible, in order. Timed steps (the delayed
      redirect) appear where their timer fires. */
  datatype Effect =
    | Toast(message: string, kind: string)
    | SpinnerShown
    | SpinnerHidden
    | ModalShown(id: string)
    | Redirect(url: string)

  /** The overlay count after a trace of effects. */
  function Overlays(start: nat, effects: seq<Effect>): nat
    decreases |effects|
  {
    if effects == [] then start
    else
      var next :=
        match effects[0]
        case SpinnerShown => ShowSpinner(start)
        case SpinnerHidden => HideSpinner(start)
        case _ => start;
      Overlays(next, effects[1..])
  }

  /** A trace that shows the spinner once and later hides it once, with no
      other spinner effect, leaves the overlay count as it found it. */
  predicate SpinnerBracketed(effects: seq<Effect>) {
    exists i, j :: 0 <= i < j < |effects| && effects[i] == SpinnerShown && effects[j] == SpinnerHidden
      && forall k :: 0 <= k < |effects| && k != i && k != j ==>
           effects[k] != SpinnerShown && effects[k] != SpinnerHidden
  }

  predicate NoSpinner(effects: seq<Effect>) {
    forall k :: 0 <= k < |effects| ==> effects[k] != SpinnerShown && effects[k] != SpinnerHidden
  }

  lemma {:induction false} NoSpinnerKeepsOverlays(start: nat, effects: seq<Effect>)
    requires NoSpinner(effects)
    ensures Overlays(start, effects) == start
    decreases |effects|
  {
    if effects != [] {
      assert effects[0] != SpinnerShown && effects[0] != SpinnerHidden;
      NoSpinnerKeepsOverlays(start, effects[1..]);
    }
  }

  /** The pairing a `try … finally { hideSpinner(); }` guarantees: a
      bracketed trace restores the overlay count. */
  lemma {:induction false} BracketedKeepsOverlays(start: nat, effects: seq<Effect>)
    requires SpinnerBracketed(effects)
    ensures Overlays(start, effects) == start
    decreases |effects|
  {
    var i, j :| 0 <= i < j < |effects| && effects[i] == SpinnerShown && effects[j] == SpinnerHidden
      && forall k :: 0 <= k < |effects| && k != i && k != j ==>
           effects[k] != SpinnerShown && effects[k] != SpinnerHidden;
    if i > 0 {
      assert effects[0] != SpinnerShown && effects[0] != SpinnerHidden;
      var tail := effects[1..];
      assert tail[i - 1] == SpinnerShown && tail[j - 1] == SpinnerHidden;
      forall k | 0 <= k < |tail| && k != i - 1 && k != j - 1
        ensures tail[k] != SpinnerShown && tail[k] != SpinnerHidden
      {
        assert tail[k] == effects[k + 1];
      }
      BracketedKeepsOverlays(start, tail);
    } else {
      ShownThenHidden(start + 1, effects[1..], j - 1);
    }
  }

  /** After the show, the overlay count is one higher until the single hide
      takes it back. */
  lemma {:induction false} ShownThenHidden(n: nat, effects: seq<Effect>, j: int)
    requires n > 0
    requires 0 <= j < |effects| && effects[j] == SpinnerHidden
    requires forall k :: 0 <= k < |effects| && k != j ==>
      effects[k] != SpinnerShown && effects[k] != SpinnerHidden
    ensures Overlays(n, effects) == n - 1
    decreases |effects|
  {
    var tail := effects[1..];
    if j == 0 {
      forall k | 0 <= k < |tail| ensures tail[k] != SpinnerShown && tail[k] != SpinnerHidden {
        assert tail[k] == effects[k + 1];
      }
      NoSpinnerKeepsOverlays(n - 1, tail);
    } else {
      assert effects[0] != SpinnerShown && effects[0] != SpinnerHidden;
      forall k | 0 <= k < |tail| && k != j - 1
        ensures tail[k] != SpinnerShown && tail[k] != SpinnerHidden
      {
        assert tail[k] == effects[k + 1];
      }
      ShownThenHidden(n, tail, j - 1);
    }
  }
}

=== FILE: js_values.dfy ===
/**
 * The JavaScript values the application keeps in local storage, JavaScript's
 * truthiness rule, and the semantics of looking a key up in an object literal
 * (own properties first, then the members every object inherits from
 * Object.prototype).
 */
module JsValues {

  datatype Option<+T> = None | Some(value: T)

  /** The two user records the application writes: the fixed demo user of a
      login, and the record assembled from the signup form. Timestamps are the
      ISO strings produced by the browser clock, passed in as text. */
  datatype UserRecord =
    | DemoUser(id: int, email: string, name: string, role: string,
               avatar: string, loginTime: string)
    | NewUser(id: int, firstName: string, lastName: string, email: string,
              organization: string, role: string, avatar: string,
              createdAt: string, verified: bool)

  /** A JSON-serialisable value as stored under a key. Numbers are integers:
      every number the application stores is one. */
  datatype Value =
    | Null
    | Bool(b: bool)
    | Num(n: int)
    | Str(s: string)
    | User(user: UserRecord)

  /** JavaScript's `!!v` for the values above: the falsy ones are exactly
      null, false, 0 and the empty string. */
  function Truthy(v: Value): (b: bool)
    ensures !b <==> v in {Null, Bool(false), Num(0), Str([])}
  {
    match v
    case Null => false
    case Bool(b) => b
    case Num(n) => n != 0
    case Str(s) => s != []
    case User(_) => true
  }

  /** The result of reading `obj[key]` from an object literal whose own
      properties are all strings. */
  datatype Prop =
    | Own(text: string)      // an own string property
    | Inherited(name: string) // a function or object inherited from Object.prototype
    | Undefined

  /** Names every object literal inherits from Object.prototype. */
  const ObjectPrototypeMembers: set<string> := {
    "constructor", "hasOwnProperty", "isPrototypeOf", "propertyIsEnumerable",
    "toString", "toLocaleString", "valueOf", "__proto__",
    "__defineGetter__", "__defineSetter__", "__lookupGetter__", "__lookupSetter__"
  }

  /** `obj[key]` on an object literal with own properties `own`. */
  function ObjectGet(own: map<string, string>, key: string): (r: Prop)
    ensures r.Own? <==> key in own
    ensures r.Own? ==> r.text == own[key]
    ensures r.Inherited? <==> key !in own && key in ObjectPrototypeMembers
    ensures r.Inherited? ==> r.name == key
  {
    if key in own then Own(own[key])
    else if key in ObjectPrototypeMembers then Inherited(key)
    else Undefined
  }

  /** `p || fallback`: a falsy result (undefined or the empty string) is
      replaced by the fallback; functions and objects are truthy. */
  function OrElse(p: Prop, fallback: string): (r: Prop)
    ensures r.Inherited? <==> p.Inherited?
    ensures p.Inherited? ==> r == p
    ensures p.Own? && p.text != [] ==> r == p
    ensures p.Undefined? || (p.Own? && p.text == []) ==> r == Own(fallback)
  {
    match p
    case Own(s) => if s != [] then p else Own(fallback)
    case Inherited(_) => p
    case Undefined => Own(fallback)
  }

  /** The name a native function reports: the constructor inherited by
      every object literal is `Object`, the other members carry their own
      names. */
  function NativeFunctionName(member: string): string {
    if member == "constructor" then "Object" else member
  }

  /** `String(p)`, as assigning `p` to `textContent` converts it. A native
      function prints in the `NativeFunction` form of ECMAScript's
      `Function.prototype.toString`; `__proto__` is Object.prototype itself,
      which prints as "[object Object]". */
  function PropText(p: Prop): (text: string)
    ensures p.Own? ==> text == p.text
    ensures p.Undefined? ==> text == "undefined"
    ensures p == Inherited("__proto__") ==> text == "[object Object]"
    ensures p.Inherited? && p.name != "__proto__" ==>
      text == "function " + NativeFunctionName(p.name) + "() { [native code] }"
  {
    match p
    case Own(t) => t
    case Undefined => "undefined"
    case Inherited(name) =>
      if name == "__proto__" then "[object Object]"
      else "function " + NativeFunctionName(name) + "() { [native code] }"
  }

  /** The fields the dashboard reads from the stored user, as JavaScript
      property reads: a missing field (or any field of a non-record) is
      undefined. */
  function Field(v: Value, name: string): (r: Option<string>)
    ensures !v.User? ==> r == None
  {
    match v
    case User(u) =>
      if name == "firstName" && u.NewUser? then Some(u.firstName)
      else if name == "lastName" && u.NewUser? then Some(u.lastName)
      else if name == "avatar" then Some(u.avatar)
      else if name == "role" then Some(u.role)
      else None
    case _ => None
  }

  /** A name that reads the same when pasted between the double quotes of a
      CSS attribute selector: no double quote, backslash, line break or NUL
      (which CSS input preprocessing turns into U+FFFD). */
  predicate SelectorSafe(name: string) {
    forall i :: 0 <= i < |name| ==>
      name[i] != '"' && name[i] != '\\' && name[i] != '\n' && name[i] != '\r' && name[i] != '\U{C}'
      && name[i] != '\0'
  }
}

=== FILE: mobile_demo.dfy ===
/**
 * The phone mock-up embedded in the dashboard: the airplane-mode toggle, the
 * generate-proof and submit buttons with their shared status line, and the
 * bottom navigation between the three mobile views. Each asynchronous
 * handler is one atomic step.
 */
module MobileDemo {
  import opened JsValues

  /** The status line under the submit card. */
  datatype Status =
    | Blank          // empty text
    | ConnectWarning // warning sign + "Connect to internet to submit proof"
    | Confirmed      // "Transaction Confirmed: Block #192834"

  /** `offline` is the toggle's checked state, `proofGenerated` the handler's
      closure variable; the three `Disabled` flags are the generate button's
      and submit button's `disabled` and the submit card's "disabled"
      class. */
  datatype Demo = Demo(
    offline: bool, proofGenerated: bool,
    generateDisabled: bool, submitDisabled: bool, cardDisabled: bool,
    status: Status)

  /** The page as loaded: online, no proof, generate enabled, the submit
      card and its button disabled, no status text. */
  const Initial := Demo(false, false, false, true, true, Blank)

  datatype Event = ToggleAirplane | GenerateClicked | SubmitClicked

  /** The airplane toggle's change handler. The checkbox flips, so the new
      `checked` is the negation of the old one. */
  function Toggle(d: Demo): (r: Demo)
    ensures r.offline == !d.offline && r.proofGenerated == d.proofGenerated
    ensures r.generateDisabled == d.generateDisabled
    ensures r.offline ==> r.submitDisabled && r.cardDisabled
    ensures r.offline ==> (r.status == ConnectWarning <==> d.proofGenerated)
    ensures r.offline && !d.proofGenerated ==> r.status == Blank
    ensures !r.offline && d.proofGenerated ==> !r.submitDisabled && !r.cardDisabled && r.status == Blank
    ensures !r.offline && !d.proofGenerated ==> r == d.(offline := false)
  {
    if !d.offline then
      var disabled := d.(offline := true, cardDisabled := true, submitDisabled := true, status := Blank);
      if d.proofGenerated then disabled.(status := ConnectWarning) else disabled
    else
      var online := d.(offline := false);
      if d.proofGenerated then online.(cardDisabled := false, submitDisabled := false, status := Blank)
      else online
  }

  /** The generate button's click handler, from the click to "Proof Ready".
      A disabled button receives no click. */
  function Generate(d: Demo): (r: Demo)
    ensures d.generateDisabled ==> r == d
    ensures !d.generateDisabled ==> r.proofGenerated && r.generateDisabled && r.offline == d.offline
    ensures !d.generateDisabled && !d.offline ==> !r.submitDisabled && !r.cardDisabled && r.status == d.status
    ensures !d.generateDisabled && d.offline ==>
      r.status == ConnectWarning && r.submitDisabled == d.submitDisabled && r.cardDisabled == d.cardDisabled
  {
    if d.generateDisabled then d
    else
      var done := d.(generateDisabled := true, proofGenerated := true);
      if !d.offline then done.(cardDisabled := false, submitDisabled := false)
      else done.(status := ConnectWarning)
  }

  /** The submit button's click handler, from the click to the confirmed
      transaction. The button stays disabled afterwards. */
  function Submit(d: Demo): (r: Demo)
    ensures d.submitDisabled ==> r == d
    ensures !d.submitDisabled ==> r == d.(submitDisabled := true, status := Confirmed)
  {
    if d.submitDisabled then d
    else d.(submitDisabled := true, status := Confirmed)
  }

  function Step(d: Demo, e: Event): Demo {
    match e
    case ToggleAirplane => Toggle(d)
    case GenerateClicked => Generate(d)
    case SubmitClicked => Submit(d)
  }

  /** The cross-control rule: submission is possible only with a proof and a
      connection; the warning appears only with a proof while offline; a
      confirmation needs a proof; the generate button is spent exactly when a
      proof exists. */
  predicate Consistent(d: Demo) {
    && (!d.submitDisabled ==> d.proofGenerated && !d.offline)
    && (!d.cardDisabled ==> d.proofGenerated && !d.offline)
    && (d.status == ConnectWarning ==> d.proofGenerated && d.offline)
    && (d.status == Confirmed ==> d.proofGenerated)
    && (d.generateDisabled <==> d.proofGenerated)
  }

  lemma InitialConsistent()
    ensures Consistent(Initial)
  {
  }

  /** Every handler keeps the rule. */
  lemma StepPreserves(d: Demo, e: Event)
    requires Consistent(d)
    ensures Consistent(Step(d, e))
    ensures d.proofGenerated ==> Step(d, e).proofGenerated
  {
  }

  function Run(d: Demo, events: seq<Event>): Demo
    decreases |events|
  {
    if events == [] then d else Run(Step(d, events[0]), events[1..])
  }

  /** From a consistent state, any sequence of user actions keeps the rule,
      and a generated proof is never lost. */
  lemma {:induction false} RunPreserves(d: Demo, events: seq<Event>)
    requires Consistent(d)
    ensures Consistent(Run(d, events))
    ensures d.proofGenerated ==> Run(d, events).proofGenerated
    decreases |events|
  {
    if events != [] {
      StepPreserves(d, events[0]);
      RunPreserves(Step(d, events[0]), events[1..]);
    }
  }

  /** Whatever the user does after loading the page, the submit button is
      enabled only while a proof exists and the phone is online. */
  lemma SubmitNeedsProofAndConnection(events: seq<Event>)
    ensures !Run(Initial, events).submitDisabled ==>
      Run(Initial, events).proofGenerated && !Run(Initial, events).offline
  {
    RunPreserves(Initial, events);
  }

  /** Generating offline and then reconnecting enables submission and
      clears the warning; submitting then confirms the transaction. */
  lemma OfflineProofFlow()
    ensures Run(Initial, [ToggleAirplane, GenerateClicked]).status == ConnectWarning
    ensures Run(Initial, [ToggleAirplane, GenerateClicked]).submitDisabled
    ensures !Run(Initial, [ToggleAirplane, GenerateClicked, ToggleAirplane]).submitDisabled
    ensures Run(Initial, [ToggleAirplane, GenerateClicked, ToggleAirplane]).status == Blank
    ensures Run(Initial, [ToggleAirplane, GenerateClicked, ToggleAirplane, SubmitClicked]).status == Confirmed
  {
    var a := Toggle(Initial);
    var b := Generate(a);
    var c := Toggle(b);
    var e := Submit(c);
    assert Run(Initial, [ToggleAirplane, GenerateClicked]) == b by {
      assert [ToggleAirplane, GenerateClicked][1..] == [GenerateClicked];
      assert Run(a, [GenerateClicked]) == Run(b, []);
    }
    assert Run(Initial, [ToggleAirplane, GenerateClicked, ToggleAirplane]) == c by {
      assert [ToggleAirplane, GenerateClicked, ToggleAirplane][1..] == [GenerateClicked, ToggleAirplane];
      assert [GenerateClicked, ToggleAirplane][1..] == [ToggleAirplane];
      assert Run(b, [ToggleAirplane]) == Run(c, []);
    }
    assert Run(Initial, [ToggleAirplane, GenerateClicked, ToggleAirplane, SubmitClicked]) == e by {
      assert [ToggleAirplane, GenerateClicked, ToggleAirplane, SubmitClicked][1..]
        == [GenerateClicked, ToggleAirplane, SubmitClicked];
      assert [GenerateClicked, ToggleAirplane, SubmitClicked][1..] == [ToggleAirplane, SubmitClicked];
      assert [ToggleAirplane, SubmitClicked][1..] == [SubmitClicked];
      assert Run(c, [SubmitClicked]) == Run(e, []);
    }
  }

  /** The three views of the mock-up and their navigation buttons. */
  datatype View = Home | Delivery | Credentials

  function ViewName(v: View): string {
    match v
    case Home => "home"
    case Delivery => "delivery"
    case Credentials => "credentials"
  }

  /** The name comparison chain of `switchMobileView`. */
  function ViewNamed(name: string): (v: Option<View>)
    ensures v.Some? ==> ViewName(v.value) == name
  {
    if name == "home" then Some(Home)
    else if name == "delivery" then Some(Delivery)
    else if name == "credentials" then Some(Credentials)
    else None
  }

  /** The views displayed and the navigation buttons marked active. */
  datatype MobileNav = MobileNav(shown: set<View>, activeNav: set<View>)

  /** `switchMobileView(viewName)`: hide everything, then show the named
      view and mark its button. */
  function SwitchMobileView(m: MobileNav, name: string): (r: MobileNav)
    ensures r.shown == r.activeNav
    ensures forall v :: v in r.shown <==> ViewName(v) == name
    ensures |r.shown| <= 1
  {
    match ViewNamed(name)
    case Some(v) => MobileNav({v}, {v})
    case None =>
      assert forall v :: ViewName(v) != name by {
        forall v ensures ViewName(v) != name {
          assert ViewNamed(ViewName(v)) == Some(v);
        }
      }
      MobileNav({}, {})
  }

  /** Every view can be named, and only the three names select one. */
  lemma ViewNameRoundTrip(v: View, name: string)
    ensures ViewNamed(ViewName(v)) == Some(v)
    ensures ViewNamed(name).Some? <==> name in {"home", "delivery", "credentials"}
  {
  }

  /** The view shown depends only on the last name chosen. */
  lemma SwitchForgetsHistory(m: MobileNav, first: string, second: string)
    ensures SwitchMobileView(SwitchMobileView(m, first), second) == SwitchMobileView(m, second)
  {
  }
}

=== FILE: navigation.dfy ===
/**
 * Dashboard page switching: `navigateToPage(pageName)` over an abstract page
 * (which nav items and page blocks exist, which carry the "active" class,
 * and the page-title text), and the action-card listener that recovers the
 * target page from the card's inline `onclick` text.
 */
module Navigation {
  import opened JsValues
  import Quoted

  /** `navPages` are the `data-page` values present, `pageIds` the ids of the
      page blocks present; the `active` sets are the elements carrying the
      "active" class. `hasTitle` says whether the `page-title` element
      exists. */
  datatype Dashboard = Dashboard(
    navPages: set<string>, activeNav: set<string>,
    pageIds: set<string>, activePages: set<string>,
    hasTitle: bool, title: string)

  const PageTitles: map<string, string> := map[
    "overview" := "Dashboard Overview",
    "verification" := "Mobile Verification",
    "supply-chain" := "Supply Chain Management",
    "credentials" := "Verifiable Credentials",
    "notifications" := "Notifications",
    "analytics" := "Analytics Dashboard",
    "profile" := "Profile Settings"
  ]

  function PageId(page: string): string {
    page + "-page"
  }

  /** `pageTitles[pageName] || 'Dashboard'` exactly as written, on an object
      literal. */
  function TitleAsWritten(page: string): (r: Prop)
    ensures page in PageTitles ==> r == Own(PageTitles[page])
    ensures page !in PageTitles && page !in ObjectPrototypeMembers ==> r == Own("Dashboard")
    ensures page !in PageTitles && page in ObjectPrototypeMembers ==> r == Inherited(page)
  {
    OrElse(ObjectGet(PageTitles, page), "Dashboard")
  }

  /** The title lookup as intended: the table entry, or 'Dashboard' for a
      page the table does not list. */
  function TitleFor(page: string): (title: string)
    ensures page in PageTitles ==> title == PageTitles[page]
    ensures page !in PageTitles ==> title == "Dashboard"
  {
    if page in PageTitles then PageTitles[page] else "Dashboard"
  }

  /** The text `pageTitle.textContent` receives from the written lookup. */
  function WrittenTitle(page: string): (title: string)
    ensures page !in ObjectPrototypeMembers ==> title == TitleFor(page)
    ensures page == "constructor" ==> title == "function Object() { [native code] }"
  {
    PropText(TitleAsWritten(page))
  }

  /** The written and intended lookups differ only on the names of
      Object.prototype members, where the written one sets the title to an
      inherited function. */
  lemma TitleLookupDiverges(page: string)
    ensures page !in ObjectPrototypeMembers ==> TitleAsWritten(page) == Own(TitleFor(page))
    ensures page in ObjectPrototypeMembers ==>
      TitleAsWritten(page) == Inherited(page) && TitleFor(page) == "Dashboard"
  {
  }

  /** A concrete input: `navigateToPage('constructor')` with a
      `constructor-page` block present. */
  lemma TitleOfConstructor()
    ensures TitleAsWritten("constructor") != Own(TitleFor("constructor"))
  {
    assert "constructor" in ObjectPrototypeMembers;
  }

  /** `navigateToPage(pageName)`. The `data-page` selector is built by
      pasting the name between double quotes, hence `SelectorSafe`. */
  function NavigateToPage(d: Dashboard, page: string): (r: Dashboard)
    requires SelectorSafe(page)
    ensures r.navPages == d.navPages && r.pageIds == d.pageIds && r.hasTitle == d.hasTitle
    ensures r.activeNav <= {page} && (page in r.activeNav <==> page in d.navPages)
    ensures r.activePages <= {PageId(page)} && (PageId(page) in r.activePages <==> PageId(page) in d.pageIds)
    ensures PageId(page) in d.pageIds && d.hasTitle ==> r.title == WrittenTitle(page)
    ensures !(PageId(page) in d.pageIds && d.hasTitle) ==> r.title == d.title
  {
    var navCleared := d.(activeNav := {});
    var navSet := if page in d.navPages then navCleared.(activeNav := {page}) else navCleared;
    var pagesCleared := navSet.(activePages := {});
    if PageId(page) in d.pageIds then
      var shown := pagesCleared.(activePages := {PageId(page)});
      if d.hasTitle then shown.(title := WrittenTitle(page)) else shown
    else pagesCleared
  }

  /** Navigating to the page already shown changes nothing. */
  lemma NavigateIdempotent(d: Dashboard, page: string)
    requires SelectorSafe(page)
    ensures NavigateToPage(NavigateToPage(d, page), page) == NavigateToPage(d, page)
  {
  }

  /** A worked example rather than a general property: activating
      "supply-chain" titles the page "Supply Chain Management" and leaves
      only its own block active; an unknown name leaves no block active and
      the title untouched. The general statements are `NavigateIdempotent`
      and `NavigationForgetsHistory`. */
  lemma NavigateExamples(d: Dashboard)
    requires d.hasTitle && "supply-chain-page" in d.pageIds && "unknown-page" !in d.pageIds
    ensures NavigateToPage(d, "supply-chain").title == "Supply Chain Management"
    ensures NavigateToPage(d, "supply-chain").activePages == {"supply-chain-page"}
    ensures NavigateToPage(d, "unknown").activePages == {}
    ensures NavigateToPage(d, "unknown").title == d.title
  {
    assert PageId("supply-chain") == "supply-chain-page";
    assert PageId("unknown") == "unknown-page";
  }

  predicate AllSafe(pages: seq<string>) {
    forall i :: 0 <= i < |pages| ==> SelectorSafe(pages[i])
  }

  /** For every page name that is not an Object.prototype member, the title
      navigation writes is the intended one. */
  lemma NavigateTitleIntended(d: Dashboard, page: string)
    requires SelectorSafe(page) && page !in ObjectPrototypeMembers
    requires d.hasTitle && PageId(page) in d.pageIds
    ensures NavigateToPage(d, page).title == TitleFor(page)
  {
  }

  /** A concrete input at the level of navigation: with a `constructor-page`
      block present, `navigateToPage('constructor')` titles the page with the
      source text of the `Object` function instead of 'Dashboard'. */
  lemma NavigateToConstructor(d: Dashboard)
    requires d.hasTitle && "constructor-page" in d.pageIds
    ensures NavigateToPage(d, "constructor").title == "function Object() { [native code] }"
    ensures NavigateToPage(d, "constructor").title != TitleFor("constructor")
  {
    assert PageId("constructor") == "constructor-page";
    assert "constructor" in ObjectPrototypeMembers;
  }

  /** A run of navigations, first to last. */
  function NavigateAll(d: Dashboard, pages: seq<string>): Dashboard
    requires AllSafe(pages)
    decreases |pages|
  {
    if pages == [] then d
    else NavigateAll(NavigateToPage(d, pages[0]), pages[1..])
  }

  /** Reference definition: the title after a run is the title of the last
      page whose block exists, or the starting title when none does (or
      there is no title element). */
  function LastTitle(d: Dashboard, pages: seq<string>): string
    decreases |pages|
  {
    if pages == [] then d.title
    else
      var last := pages[|pages| - 1];
      if d.hasTitle && PageId(last) in d.pageIds then WrittenTitle(last)
      else LastTitle(d, pages[..|pages| - 1])
  }

  /** Navigation forgets its history: after any non-empty run, the active
      nav item and page block are those of the last name alone, and the
      title is that of the last name whose page exists. */
  lemma {:induction false} NavigationForgetsHistory(d: Dashboard, pages: seq<string>)
    requires AllSafe(pages)
    ensures pages != [] ==>
      && NavigateAll(d, pages).activeNav == NavigateToPage(d, pages[|pages| - 1]).activeNav
      && NavigateAll(d, pages).activePages == NavigateToPage(d, pages[|pages| - 1]).activePages
    ensures NavigateAll(d, pages).title == LastTitle(d, pages)
    ensures NavigateAll(d, pages).navPages == d.navPages && NavigateAll(d, pages).pageIds == d.pageIds
    ensures NavigateAll(d, pages).hasTitle == d.hasTitle
    decreases |pages|
  {
    if pages != [] {
      var init := pages[..|pages| - 1];
      var last := pages[|pages| - 1];
      assert AllSafe(init) by {
        forall i | 0 <= i < |init| ensures SelectorSafe(init[i]) {
          assert init[i] == pages[i];
        }
      }
      NavigateAllSnoc(d, init, last);
      assert init + [last] == pages;
      NavigationForgetsHistory(d, init);
      var before := NavigateAll(d, init);
      var after := NavigateToPage(before, last);
      assert NavigateAll(d, pages) == after;
      assert before.pageIds == d.pageIds && before.hasTitle == d.hasTitle;
      if d.hasTitle && PageId(last) in d.pageIds {
        assert after.title == WrittenTitle(last);
        assert LastTitle(d, pages) == WrittenTitle(last);
      } else {
        assert after.title == before.title;
        assert LastTitle(d, pages) == LastTitle(d, init);
      }
    }
  }

  /** Unfolding a run from its end. */
  lemma {:induction false} NavigateAllSnoc(d: Dashboard, pages: seq<string>, last: string)
    requires AllSafe(pages) && SelectorSafe(last)
    ensures AllSafe(pages + [last])
    ensures NavigateAll(d, pages + [last]) == NavigateToPage(NavigateAll(d, pages), last)
    decreases |pages|
  {
    assert AllSafe(pages + [last]) by {
      forall i | 0 <= i < |pages + [last]| ensures SelectorSafe((pages + [last])[i]) {
        if i < |pages| {
          assert (pages + [last])[i] == pages[i];
        }
      }
    }
    if pages != [] {
      assert (pages + [last])[1..] == pages[1..] + [last];
      assert AllSafe(pages[1..]) by {
        forall i | 0 <= i < |pages[1..]| ensures SelectorSafe(pages[1..][i]) {
          assert pages[1..][i] == pages[i + 1];
        }
      }
      NavigateAllSnoc(NavigateToPage(d, pages[0]), pages[1..], last);
    }
  }

  /** What an action-card click does. */
  datatype CardClick = NoHandler | Threw | Navigated(dashboard: Dashboard)

  /** The action-card listener: no attribute (or an empty one) does nothing;
      otherwise `href.match(/navigateToPage\('([^']+)'\)/)[1]`, which throws
      on a null match, then `navigateToPage`. */
  function ActionCardClick(d: Dashboard, onclick: Option<string>): (r: CardClick)
    requires onclick.Some? && Quoted.PageCallTarget(onclick.value).Some? ==>
      SelectorSafe(Quoted.PageCallTarget(onclick.value).value)
    ensures onclick.None? || onclick.value == [] ==> r == NoHandler
    ensures onclick.Some? && onclick.value != [] && Quoted.PageCallTarget(onclick.value).None? ==> r == Threw
    ensures onclick.Some? && onclick.value != [] && Quoted.PageCallTarget(onclick.value).Some? ==>
      r == Navigated(NavigateToPage(d, Quoted.PageCallTarget(onclick.value).value))
    ensures r.Navigated? ==>
      onclick.Some? && Quoted.PageCallTarget(onclick.value).Some?
      && r.dashboard == NavigateToPage(d, Quoted.PageCallTarget(onclick.value).value)
  {
    match onclick
    case None => NoHandler
    case Some(href) =>
      if href == [] then NoHandler
      else
        match Quoted.PageCallTarget(href)
        case None => Threw
        case Some(page) => Navigated(NavigateToPage(d, page))
  }

  /** A card written as `navigateToPage('page')` navigates to `page`. */
  lemma CardNavigatesToWrittenPage(d: Dashboard, page: string)
    requires Quoted.NoQuote(page) && |page| > 0 && SelectorSafe(page)
    ensures Quoted.PageCallTarget("navigateToPage('" + page + "')") == Some(page)
    ensures ActionCardClick(d, Some("navigateToPage('" + page + "')")) == Navigated(NavigateToPage(d, page))
  {
    Quoted.PageCallTargetOfCall(page);
  }
}

=== FILE: quoted.dfy ===
/**
 * Recovering a name from an inline `onclick` attribute with a regular
 * expression of the form  open `([^']+)` close, where `open` ends with a
 * single quote and `close` starts with one: `'([^']+)'` for the auth tabs and
 * `navigateToPage\('([^']+)'\)` for the dashboard's action cards. The result
 * is the first capture group of the leftmost match, or None where the source
 * reads `[1]` of a null match and throws.
 */
module Quoted {
  import opened JsValues

  predicate NoQuote(s: string) {
    forall i :: 0 <= i < |s| ==> s[i] != '\''
  }

  /** Index of the first single quote at or after `from`, or `|s|`. */
  function NextQuote(s: string, from: nat): (j: nat)
    requires from <= |s|
    ensures from <= j <= |s|
    ensures j < |s| ==> s[j] == '\''
    ensures forall k :: from <= k < j ==> s[k] != '\''
    decreases |s| - from
  {
    if from == |s| then from
    else if s[from] == '\'' then from
    else NextQuote(s, from + 1)
  }

  /** The regular expression matches starting at `i`, its group spanning
      `s[i + |open|..j]`. */
  ghost predicate RegexMatch(s: string, open: string, close: string, i: int, j: int) {
    && 0 <= i && i + |open| < j && j + |close| <= |s|
    && s[i..i + |open|] == open
    && NoQuote(s[i + |open|..j])
    && s[j..j + |close|] == close
  }

  /** Decision for one start position: the group is the quote-free run after
      `open`, so it must end at the next quote. */
  predicate MatchesAt(s: string, open: string, close: string, i: nat) {
    && i + |open| <= |s|
    && s[i..i + |open|] == open
    && var j := NextQuote(s, i + |open|);
       j > i + |open| && j + |close| <= |s| && s[j..j + |close|] == close
  }

  /** The decision agrees with the regular expression: a match at `i` exists
      exactly when `MatchesAt`, and then its group ends at the next quote. */
  lemma MatchesAtIsRegex(s: string, open: string, close: string, i: nat)
    requires |close| > 0 && close[0] == '\''
    ensures MatchesAt(s, open, close, i) <==> exists j :: RegexMatch(s, open, close, i, j)
    ensures forall j :: RegexMatch(s, open, close, i, j) ==> j == NextQuote(s, i + |open|)
  {
    forall j | RegexMatch(s, open, close, i, j)
      ensures j == NextQuote(s, i + |open|)
    {
      assert s[j] == close[0];
    }
    if MatchesAt(s, open, close, i) {
      var j := NextQuote(s, i + |open|);
      assert RegexMatch(s, open, close, i, j);
    }
  }

  /** The leftmost match position at or after `from`. */
  function FindFrom(s: string, open: string, close: string, from: nat): (r: Option<nat>)
    requires from <= |s| + 1
    ensures r.Some? ==> from <= r.value <= |s| && MatchesAt(s, open, close, r.value)
    ensures r.Some? ==> forall k :: from <= k < r.value ==> !MatchesAt(s, open, close, k)
    ensures r.None? ==> forall k :: from <= k <= |s| ==> !MatchesAt(s, open, close, k)
    decreases |s| + 1 - from
  {
    if from > |s| then None
    else if MatchesAt(s, open, close, from) then Some(from)
    else FindFrom(s, open, close, from + 1)
  }

  /** `s.match(re)[1]`, None where the match is null. */
  function Capture(s: string, open: string, close: string): (r: Option<string>)
    requires |close| > 0 && close[0] == '\''
    ensures r.Some? <==> exists i: nat, j :: RegexMatch(s, open, close, i, j)
    ensures r.Some? ==> |r.value| > 0 && NoQuote(r.value)
    ensures r.Some? ==> exists i: nat, j :: LeftmostMatch(s, open, close, i, j) && r.value == s[i + |open|..j]
  {
    match FindFrom(s, open, close, 0)
    case None =>
      forall i: nat, j | RegexMatch(s, open, close, i, j) ensures false {
        MatchesAtIsRegex(s, open, close, i);
      }
      None
    case Some(i) =>
      var j := NextQuote(s, i + |open|);
      MatchesAtIsRegex(s, open, close, i);
      assert RegexMatch(s, open, close, i, j);
      forall k: nat, j' | k < i ensures !RegexMatch(s, open, close, k, j') {
        MatchesAtIsRegex(s, open, close, k);
      }
      assert LeftmostMatch(s, open, close, i, j);
      Some(s[i + |open|..j])
  }

  /** A match at `i` with no match at any earlier position. */
  ghost predicate LeftmostMatch(s: string, open: string, close: string, i: nat, j: int) {
    RegexMatch(s, open, close, i, j)
    && forall k: nat, j' :: k < i ==> !RegexMatch(s, open, close, k, j')
  }

  /** `onclick.match(/'([^']+)'/)[1]`: the first single-quoted name. */
  function QuotedName(onclick: string): (r: Option<string>)
    ensures r.Some? ==> |r.value| > 0 && NoQuote(r.value)
    ensures r.Some? <==> exists i: nat, j :: RegexMatch(onclick, "'", "'", i, j)
    ensures r.Some? ==> exists i: nat, j :: LeftmostMatch(onclick, "'", "'", i, j) && r.value == onclick[i + 1..j]
  {
    Capture(onclick, "'", "'")
  }

  /** `onclick.match(/navigateToPage\('([^']+)'\)/)[1]`. */
  function PageCallTarget(onclick: string): (r: Option<string>)
    ensures r.Some? ==> |r.value| > 0 && NoQuote(r.value)
    ensures r.Some? <==> exists i: nat, j :: RegexMatch(onclick, "navigateToPage('", "')", i, j)
    ensures r.Some? ==> exists i: nat, j ::
      LeftmostMatch(onclick, "navigateToPage('", "')", i, j) && r.value == onclick[i + |"navigateToPage('"|..j]
  {
    Capture(onclick, "navigateToPage('", "')")
  }

  /** Two leftmost matches are the same match. */
  lemma LeftmostUnique(s: string, open: string, close: string, i: nat, j: int, i': nat, j': int)
    requires |close| > 0 && close[0] == '\''
    requires LeftmostMatch(s, open, close, i, j) && LeftmostMatch(s, open, close, i', j')
    ensures i == i' && j == j'
  {
    MatchesAtIsRegex(s, open, close, i);
  }

  /** Round trip: when `open` holds a single quote, at its end, the name
      written between `open` and `close` after quote-free text is the name
      captured. */
  lemma CaptureOfCall(open: string, close: string, prefix: string, name: string, suffix: string)
    requires |open| > 0 && open[|open| - 1] == '\'' && NoQuote(open[..|open| - 1])
    requires |close| > 0 && close[0] == '\''
    requires NoQuote(prefix) && NoQuote(name) && |name| > 0
    ensures Capture(prefix + open + name + close + suffix, open, close) == Some(name)
  {
    var s := prefix + open + name + close + suffix;
    var i, j := |prefix|, |prefix| + |open| + |name|;
    assert s[..|prefix| + |open|] == prefix + open;
    assert s[i..i + |open|] == open;
    assert s[i + |open|..j] == name;
    assert s[j..j + |close|] == close;
    assert RegexMatch(s, open, close, i, j);
    forall k: nat, j' | k < i ensures !RegexMatch(s, open, close, k, j') {
      NoMatchInsidePrefix(s, open, close, prefix, k, j');
    }
    CaptureOfLeftmost(s, open, close, i, j);
  }

  /** The capture is the group of the leftmost match. */
  lemma CaptureOfLeftmost(s: string, open: string, close: string, i: nat, j: int)
    requires |close| > 0 && close[0] == '\''
    requires LeftmostMatch(s, open, close, i, j)
    ensures Capture(s, open, close) == Some(s[i + |open|..j])
  {
    var t := Capture(s, open, close);
    var i': nat, j' :| LeftmostMatch(s, open, close, i', j') && t.value == s[i' + |open|..j'];
    LeftmostUnique(s, open, close, i, j, i', j');
  }

  /** No match can start inside a quote-free prefix that is followed by
      `open`: the quote ending `open` would fall on a quote-free character. */
  lemma NoMatchInsidePrefix(s: string, open: string, close: string, prefix: string, k: nat, j: int)
    requires |open| > 0 && open[|open| - 1] == '\'' && NoQuote(open[..|open| - 1])
    requires NoQuote(prefix) && |prefix| + |open| <= |s| && s[..|prefix| + |open|] == prefix + open
    requires k < |prefix|
    ensures !RegexMatch(s, open, close, k, j)
  {
    var q := k + |open| - 1;
    assert s[q] == (prefix + open)[q];
    if q < |prefix| {
      assert s[q] == prefix[q];
    } else {
      assert s[q] == open[q - |prefix|];
      assert open[..|open| - 1][q - |prefix|] == open[q - |prefix|];
    }
  }

  /** `switchTab('name')` yields `name`. */
  lemma QuotedNameOfCall(name: string)
    requires NoQuote(name) && |name| > 0
    ensures QuotedName("switchTab('" + name + "')") == Some(name)
  {
    CaptureOfCall("'", "'", "switchTab(", name, ")");
    assert "switchTab(" + "'" + name + "'" + ")" == "switchTab('" + name + "')";
  }

  /** `navigateToPage('name')` yields `name`. */
  lemma PageCallTargetOfCall(name: string)
    requires NoQuote(name) && |name| > 0
    ensures PageCallTarget("navigateToPage('" + name + "')") == Some(name)
  {
    CaptureOfCall("navigateToPage('", "')", "", name, "");
    assert "" + "navigateToPage('" + name + "')" + "" == "navigateToPage('" + name + "')";
  }
}

=== FILE: session.dfy ===
/**
 * The simulated session layer of the login page: the login and signup
 * handlers (ordered first-failure validation, the user record and session
 * keys written on success, the spinner bracketing) and the "already logged
 * in" guard. The awaited fake API call is a parameter: the source's always
 * resolves, and `Rejected` is the path its `catch` block handles.
 */
module Session {
  import opened JsValues
  import opened Storage
  import opened Feedback
  import Email
  import PasswordStrength

  const CurrentUserKey := "currentUser"
  const IsLoggedInKey := "isLoggedIn"
  const RememberMeKey := "rememberMe"
  const SessionKeys: set<string> := {CurrentUserKey, IsLoggedInKey, RememberMeKey}

  const InvalidEmailMessage := "Please enter a valid email address"
  const MissingPasswordMessage := "Please enter your password"
  const MissingNameMessage := "Please enter your full name"
  const ShortPasswordMessage := "Password must be at least 8 characters long"
  const MismatchMessage := "Passwords do not match"
  const TermsMessage := "Please accept the Terms of Service"
  const LoginSuccessMessage := "Login successful! Redirecting..."
  const LoginFailedMessage := "Login failed. Please try again."
  const SignupFailedMessage := "Signup failed. Please try again."
  const ProviderRole := "Healthcare Provider"

  datatype LoginForm = LoginForm(email: string, password: string, rememberMe: bool)

  datatype SignupForm = SignupForm(
    firstName: string, lastName: string, email: string, password: string,
    confirmPassword: string, organization: string, termsAccepted: bool)

  /** How the awaited fake API call settles. */
  datatype ApiOutcome = Resolved | Rejected

  /** The clock readings a handler takes: `Date.now()` and the ISO string of
      `new Date()`. */
  datatype Clock = Clock(nowMillis: int, iso: string)

  /** The store after a handler, and what it made visible, in order. */
  datatype HandlerResult = HandlerResult(store: Store, effects: seq<Effect>)

  /** `a` and `b` agree on every key outside `keys`. */
  ghost predicate SameOutside(a: Store, b: Store, keys: set<string>) {
    forall k :: k !in keys ==> (k in a <==> k in b) && (k in a ==> a[k] == b[k])
  }

  /** One validation step: whether it passes, and the toast when it fails. */
  datatype Check = Check(passes: bool, message: string)

  /** Reference definition: the message of the first failing check. */
  function FirstFailure(checks: seq<Check>): Option<string> {
    if checks == [] then None
    else if !checks[0].passes then Some(checks[0].message)
    else FirstFailure(checks[1..])
  }

  /** The first failure is a failing check all of whose predecessors pass;
      there is none exactly when every check passes. */
  lemma {:induction false} FirstFailureIsFirst(checks: seq<Check>)
    ensures FirstFailure(checks).None? <==> forall k :: 0 <= k < |checks| ==> checks[k].passes
    ensures FirstFailure(checks).Some? ==>
      exists i :: 0 <= i < |checks| && !checks[i].passes && checks[i].message == FirstFailure(checks).value
        && forall k :: 0 <= k < i ==> checks[k].passes
  {
    if checks != [] && checks[0].passes {
      FirstFailureIsFirst(checks[1..]);
      if FirstFailure(checks).Some? {
        var i :| 0 <= i < |checks[1..]| && !checks[1..][i].passes
          && checks[1..][i].message == FirstFailure(checks).value
          && forall k :: 0 <= k < i ==> checks[1..][k].passes;
        assert !checks[i + 1].passes;
        forall k | 0 <= k < i + 1 ensures checks[k].passes {
          if k > 0 {
            assert checks[k] == checks[1..][k - 1];
          }
        }
      } else {
        forall k | 0 <= k < |checks| ensures checks[k].passes {
          if k > 0 {
            assert checks[k] == checks[1..][k - 1];
          }
        }
      }
    } else if checks != [] {
      assert !checks[0].passes;
    }
  }

  lemma FirstFailureOfFive(a: Check, b: Check, c: Check, d: Check, e: Check)
    ensures FirstFailure([a, b, c, d, e]) ==
      if !a.passes then Some(a.message)
      else if !b.passes then Some(b.message)
      else if !c.passes then Some(c.message)
      else if !d.passes then Some(d.message)
      else if !e.passes then Some(e.message)
      else None
  {
    assert [a, b, c, d, e][1..] == [b, c, d, e];
    assert [b, c, d, e][1..] == [c, d, e];
    assert [c, d, e][1..] == [d, e];
    assert [d, e][1..] == [e];
    assert [e][1..] == [];
    assert FirstFailure([e]) == if !e.passes then Some(e.message) else None;
    assert FirstFailure([d, e]) == if !d.passes then Some(d.message) else FirstFailure([e]);
    assert FirstFailure([c, d, e]) == if !c.passes then Some(c.message) else FirstFailure([d, e]);
    assert FirstFailure([b, c, d, e]) == if !b.passes then Some(b.message) else FirstFailure([c, d, e]);
  }

  /** The login form's checks, in the order `handleLogin` runs them. */
  function LoginChecks(f: LoginForm): seq<Check> {
    [ Check(Email.ValidateEmail(f.email), InvalidEmailMessage),
      Check(f.password != [], MissingPasswordMessage) ]
  }

  /** The signup form's checks, in the order `handleSignup` runs them. */
  function SignupChecks(f: SignupForm): seq<Check> {
    [ Check(f.firstName != [] && f.lastName != [], MissingNameMessage),
      Check(Email.ValidateEmail(f.email), InvalidEmailMessage),
      Check(PasswordStrength.ValidatePassword(f.password), ShortPasswordMessage),
      Check(f.password == f.confirmPassword, MismatchMessage),
      Check(f.termsAccepted, TermsMessage) ]
  }

  /** The early returns of `handleLogin`. */
  function LoginValidation(f: LoginForm): (r: Option<string>)
    ensures r == FirstFailure(LoginChecks(f))
  {
    var checks := LoginChecks(f);
    assert FirstFailure(checks[1..][1..]) == None;
    if !Email.ValidateEmail(f.email) then Some(InvalidEmailMessage)
    else if f.password == [] then Some(MissingPasswordMessage)
    else None
  }

  /** The early returns of `handleSignup`. */
  function SignupValidation(f: SignupForm): (r: Option<string>)
    ensures r == FirstFailure(SignupChecks(f))
  {
    var checks := SignupChecks(f);
    FirstFailureOfFive(checks[0], checks[1], checks[2], checks[3], checks[4]);
    if f.firstName == [] || f.lastName == [] then Some(MissingNameMessage)
    else if !Email.ValidateEmail(f.email) then Some(InvalidEmailMessage)
    else if !PasswordStrength.ValidatePassword(f.password) then Some(ShortPasswordMessage)
    else if f.password != f.confirmPassword then Some(MismatchMessage)
    else if !f.termsAccepted then Some(TermsMessage)
    else None
  }

  /** The fixed demo user every login writes. */
  function DemoUserFor(email: string, clock: Clock): UserRecord {
    DemoUser(1, email, "Dr. Jane Doe", ProviderRole, "JD", clock.iso)
  }

  /** `s.charAt(0)`: the first character, or "" for the empty string. */
  function CharAt0(s: string): (r: string)
    ensures |r| <= 1
    ensures s != [] ==> r == [s[0]]
    ensures s == [] ==> r == []
  {
    if s == [] then [] else s[..1]
  }

  /** The avatar initials of a signup. */
  function Avatar(firstName: string, lastName: string): (a: string)
    ensures |a| <= 2
    ensures firstName != [] && lastName != [] ==> a == [firstName[0], lastName[0]]
    ensures firstName == [] ==> a == CharAt0(lastName)
    ensures lastName == [] ==> a == CharAt0(firstName)
  {
    CharAt0(firstName) + CharAt0(lastName)
  }

  /** The record a signup writes. */
  function NewUserFor(f: SignupForm, clock: Clock): UserRecord {
    NewUser(clock.nowMillis, f.firstName, f.lastName, f.email, f.organization,
            ProviderRole, Avatar(f.firstName, f.lastName), clock.iso, false)
  }

  /** `handleLogin(event)`, with the awaited call and the delayed redirect
      collapsed into one step each. */
  function HandleLogin(st: Store, f: LoginForm, api: ApiOutcome, clock: Clock): (r: HandlerResult)
    ensures !Email.ValidateEmail(f.email) ==> r == HandlerResult(st, [Toast(InvalidEmailMessage, "error")])
    ensures Email.ValidateEmail(f.email) && f.password == [] ==>
      r == HandlerResult(st, [Toast(MissingPasswordMessage, "error")])
    ensures LoginValidation(f).None? && api == Rejected ==>
      r == HandlerResult(st, [SpinnerShown, Toast(LoginFailedMessage, "error"), SpinnerHidden])
    ensures LoginValidation(f).None? && api == Resolved ==>
      && GetOrNull(r.store, CurrentUserKey) == User(DemoUserFor(f.email, clock))
      && GetOrNull(r.store, IsLoggedInKey) == Bool(true)
      && (f.rememberMe ==> GetOrNull(r.store, RememberMeKey) == Bool(true))
      && (!f.rememberMe ==> (RememberMeKey in r.store <==> RememberMeKey in st))
      && (!f.rememberMe && RememberMeKey in st ==> r.store[RememberMeKey] == st[RememberMeKey])
      && SameOutside(r.store, st, SessionKeys)
      && r.effects == [SpinnerShown, Toast(LoginSuccessMessage, "success"), SpinnerHidden, Redirect("dashboard.html")]
  {
    match LoginValidation(f)
    case Some(message) => HandlerResult(st, [Toast(message, "error")])
    case None =>
      if api == Rejected then
        HandlerResult(st, [SpinnerShown, Toast(LoginFailedMessage, "error"), SpinnerHidden])
      else
        var withUser := Set(st, CurrentUserKey, User(DemoUserFor(f.email, clock)));
        var loggedIn := Set(withUser, IsLoggedInKey, Bool(true));
        var remembered := if f.rememberMe then Set(loggedIn, RememberMeKey, Bool(true)) else loggedIn;
        HandlerResult(remembered,
          [SpinnerShown, Toast(LoginSuccessMessage, "success"), SpinnerHidden, Redirect("dashboard.html")])
  }

  /** `handleSignup(event)`. */
  function HandleSignup(st: Store, f: SignupForm, api: ApiOutcome, clock: Clock): (r: HandlerResult)
    ensures SignupValidation(f).Some? ==> r == HandlerResult(st, [Toast(SignupValidation(f).value, "error")])
    ensures SignupValidation(f).None? && api == Rejected ==>
      r == HandlerResult(st, [SpinnerShown, Toast(SignupFailedMessage, "error"), SpinnerHidden])
    ensures SignupValidation(f).None? && api == Resolved ==>
      && GetOrNull(r.store, CurrentUserKey) == User(NewUserFor(f, clock))
      && GetOrNull(r.store, IsLoggedInKey) == Bool(true)
      && SameOutside(r.store, st, {CurrentUserKey, IsLoggedInKey})
      && r.effects == [SpinnerShown, ModalShown("success-modal"), SpinnerHidden]
  {
    match SignupValidation(f)
    case Some(message) => HandlerResult(st, [Toast(message, "error")])
    case None =>
      if api == Rejected then
        HandlerResult(st, [SpinnerShown, Toast(SignupFailedMessage, "error"), SpinnerHidden])
      else
        var withUser := Set(st, CurrentUserKey, User(NewUserFor(f, clock)));
        var loggedIn := Set(withUser, IsLoggedInKey, Bool(true));
        HandlerResult(loggedIn, [SpinnerShown, ModalShown("success-modal"), SpinnerHidden])
  }

  /** A signup that passes validation stores two-letter initials: the first
      letters of the first and last names. */
  lemma SignupAvatar(st: Store, f: SignupForm, clock: Clock)
    requires SignupValidation(f).None?
    ensures var u := GetOrNull(HandleSignup(st, f, Resolved, clock).store, CurrentUserKey);
      && u.User? && u.user.NewUser?
      && |u.user.avatar| == 2
      && u.user.avatar == [f.firstName[0], f.lastName[0]]
      && u.user.role == ProviderRole && !u.user.verified
      && u.user.email == f.email && u.user.organization == f.organization
  {
  }

  /** Each signup message is shown exactly when its check fails and every
      earlier check passes. */
  lemma SignupMessageOrder(f: SignupForm)
    ensures SignupValidation(f) == Some(MissingNameMessage) <==> f.firstName == [] || f.lastName == []
    ensures SignupValidation(f) == Some(InvalidEmailMessage) <==>
      f.firstName != [] && f.lastName != [] && !Email.ValidateEmail(f.email)
    ensures SignupValidation(f) == Some(ShortPasswordMessage) <==>
      f.firstName != [] && f.lastName != [] && Email.ValidateEmail(f.email)
      && !PasswordStrength.ValidatePassword(f.password)
    ensures SignupValidation(f) == Some(MismatchMessage) <==>
      f.firstName != [] && f.lastName != [] && Email.ValidateEmail(f.email)
      && PasswordStrength.ValidatePassword(f.password) && f.password != f.confirmPassword
    ensures SignupValidation(f) == Some(TermsMessage) <==>
      f.firstName != [] && f.lastName != [] && Email.ValidateEmail(f.email)
      && PasswordStrength.ValidatePassword(f.password) && f.password == f.confirmPassword && !f.termsAccepted
    ensures SignupValidation(f).None? <==>
      forall k :: 0 <= k < |SignupChecks(f)| ==> SignupChecks(f)[k].passes
  {
    FirstFailureIsFirst(SignupChecks(f));
  }

  /** Every spinner a handler shows it also hides: validation failures never
      touch the spinner, and the `finally` block pairs the one show with one
      hide on both the resolved and the rejected path. */
  lemma HandlersPairSpinner(st: Store, lf: LoginForm, sf: SignupForm, api: ApiOutcome, clock: Clock, overlays: nat)
    ensures Overlays(overlays, HandleLogin(st, lf, api, clock).effects) == overlays
    ensures Overlays(overlays, HandleSignup(st, sf, api, clock).effects) == overlays
    ensures LoginValidation(lf).Some? ==> NoSpinner(HandleLogin(st, lf, api, clock).effects)
    ensures SignupValidation(sf).Some? ==> NoSpinner(HandleSignup(st, sf, api, clock).effects)
    ensures LoginValidation(lf).None? ==> SpinnerBracketed(HandleLogin(st, lf, api, clock).effects)
    ensures SignupValidation(sf).None? ==> SpinnerBracketed(HandleSignup(st, sf, api, clock).effects)
  {
    LoginPairsSpinner(st, lf, api, clock, overlays);
    SignupPairsSpinner(st, sf, api, clock, overlays);
  }

  lemma LoginPairsSpinner(st: Store, f: LoginForm, api: ApiOutcome, clock: Clock, overlays: nat)
    ensures Overlays(overlays, HandleLogin(st, f, api, clock).effects) == overlays
    ensures LoginValidation(f).Some? ==> NoSpinner(HandleLogin(st, f, api, clock).effects)
    ensures LoginValidation(f).None? ==> SpinnerBracketed(HandleLogin(st, f, api, clock).effects)
  {
    var e := HandleLogin(st, f, api, clock).effects;
    if LoginValidation(f).None? {
      assert e[0] == SpinnerShown && e[2] == SpinnerHidden;
      assert SpinnerBracketed(e);
      BracketedKeepsOverlays(overlays, e);
    } else {
      NoSpinnerKeepsOverlays(overlays, e);
    }
  }

  lemma SignupPairsSpinner(st: Store, f: SignupForm, api: ApiOutcome, clock: Clock, overlays: nat)
    ensures Overlays(overlays, HandleSignup(st, f, api, clock).effects) == overlays
    ensures SignupValidation(f).Some? ==> NoSpinner(HandleSignup(st, f, api, clock).effects)
    ensures SignupValidation(f).None? ==> SpinnerBracketed(HandleSignup(st, f, api, clock).effects)
  {
    var e := HandleSignup(st, f, api, clock).effects;
    if SignupValidation(f).None? {
      assert e[0] == SpinnerShown && e[2] == SpinnerHidden;
      assert SpinnerBracketed(e);
      BracketedKeepsOverlays(overlays, e);
    } else {
      NoSpinnerKeepsOverlays(overlays, e);
    }
  }

  /** `checkAuthStatus()`: whether the login page redirects to the
      dashboard. */
  function CheckAuthStatus(st: Store): (redirect: bool)
    ensures redirect <==>
      && IsLoggedInKey in st && Truthy(st[IsLoggedInKey])
      && CurrentUserKey in st && Truthy(st[CurrentUserKey])
  {
    var isLoggedIn := Get(st, IsLoggedInKey, Bool(false));
    var currentUser := GetOrNull(st, CurrentUserKey);
    Truthy(isLoggedIn) && Truthy(currentUser)
  }

  /** After a successful login or signup, revisiting the login page
      redirects; a failed attempt leaves the guard's answer unchanged. */
  lemma SuccessfulSessionRedirects(st: Store, lf: LoginForm, sf: SignupForm, api: ApiOutcome, clock: Clock)
    ensures LoginValidation(lf).None? && api == Resolved ==> CheckAuthStatus(HandleLogin(st, lf, api, clock).store)
    ensures SignupValidation(sf).None? && api == Resolved ==> CheckAuthStatus(HandleSignup(st, sf, api, clock).store)
    ensures LoginValidation(lf).Some? || api == Rejected ==>
      CheckAuthStatus(HandleLogin(st, lf, api, clock).store) == CheckAuthStatus(st)
    ensures SignupValidation(sf).Some? || api == Rejected ==>
      CheckAuthStatus(HandleSignup(st, sf, api, clock).store) == CheckAuthStatus(st)
  {
  }
}

=== FILE: storage.dfy ===
/**
 * The `Storage` wrapper over the browser's local storage: a map from keys to
 * values. Serialisation to JSON text and back is the identity on `Value`, and
 * the storage calls themselves never fail in this model.
 */
module Storage {
  import opened JsValues

  type Store = map<string, Value>

  /** `Storage.set(key, value)`. */
  function Set(st: Store, key: string, value: Value): (r: Store)
    ensures forall d :: Get(r, key, d) == value
    ensures forall k :: k != key ==> (k in r <==> k in st)
    ensures forall k :: k != key && k in st ==> r[k] == st[k]
  {
    st[key := value]
  }

  /** `Storage.get(key, defaultValue)`: the stored value, or the default when
      nothing is stored under the key. The stored text of a JSON value is
      never empty, so a present key always yields its value. */
  function Get(st: Store, key: string, default: Value): (r: Value)
    ensures key in st ==> r == st[key]
    ensures key !in st ==> r == default
  {
    if key in st then st[key] else default
  }

  /** `Storage.get(key)` with the default left out: null. */
  function GetOrNull(st: Store, key: string): (r: Value)
    ensures key !in st ==> r == Null
    ensures key in st ==> r == st[key]
  {
    Get(st, key, Null)
  }

  /** `Storage.remove(key)`. */
  function Remove(st: Store, key: string): (r: Store)
    ensures forall d :: Get(r, key, d) == d
    ensures forall k :: k != key ==> (k in r <==> k in st)
    ensures forall k :: k != key && k in st ==> r[k] == st[k]
  {
    st - {key}
  }

  /** Reads of keys other than the one written see the old store. */
  lemma OtherKeysUnchanged(st: Store, key: string, value: Value, other: string, d: Value)
    requires other != key
    ensures Get(Set(st, key, value), other, d) == Get(st, other, d)
    ensures Get(Remove(st, key), other, d) == Get(st, other, d)
  {
  }

  /** Removing after setting forgets the key entirely; setting after removing
      is a plain set. */
  lemma SetThenRemove(st: Store, key: string, value: Value)
    ensures Remove(Set(st, key, value), key) == Remove(st, key)
    ensures Set(Remove(st, key), key, value) == Set(st, key, value)
  {
  }
}

=== FILE: strength.dfy ===
/**
 * The password checks of the landing/auth pages: the five-criterion strength
 * score with its feedback list, the length-only password validator, and the
 * label and colour tables the strength meter indexes.
 */
module PasswordStrength {

  /** The five criteria, in the order `checkPasswordStrength` applies them. */
  datatype Criterion = MinLength | Lowercase | Uppercase | Number | Special

  const Criteria: seq<Criterion> := [MinLength, Lowercase, Uppercase, Number, Special]

  /** Position of a criterion in the checking order. */
  function Rank(c: Criterion): (r: nat)
    ensures r < |Criteria| && Criteria[r] == c
  {
    match c
    case MinLength => 0
    case Lowercase => 1
    case Uppercase => 2
    case Number => 3
    case Special => 4
  }

  /** The feedback line pushed when a criterion fails. */
  function Message(c: Criterion): string {
    match c
    case MinLength => "At least 8 characters"
    case Lowercase => "Lowercase letter"
    case Uppercase => "Uppercase letter"
    case Number => "Number"
    case Special => "Special character"
  }

  lemma MessagesDistinct(c: Criterion, d: Criterion)
    ensures Message(c) == Message(d) <==> c == d
  {
  }

  /** The character classes `[a-z]`, `[A-Z]`, `[0-9]` and `[^A-Za-z0-9]`. */
  datatype CharClass = Lower | Upper | Digit | Other

  function ClassOf(ch: char): CharClass {
    if 'a' <= ch <= 'z' then Lower
    else if 'A' <= ch <= 'Z' then Upper
    else if '0' <= ch <= '9' then Digit
    else Other
  }

  /** `/[class]/.test(s)`, scanning left to right. */
  function Contains(s: string, k: CharClass): bool {
    if s == [] then false
    else ClassOf(s[0]) == k || Contains(s[1..], k)
  }

  /** The scan agrees with the regular expression's meaning: some character
      of the string is in the class. */
  lemma {:induction false} ContainsMeansSomeChar(s: string, k: CharClass)
    ensures Contains(s, k) <==> exists i :: 0 <= i < |s| && ClassOf(s[i]) == k
  {
    if s != [] {
      ContainsMeansSomeChar(s[1..], k);
      if ClassOf(s[0]) != k && Contains(s, k) {
        var i :| 0 <= i < |s[1..]| && ClassOf(s[1..][i]) == k;
        assert ClassOf(s[i + 1]) == k;
      }
      if exists i :: 0 <= i < |s| && ClassOf(s[i]) == k {
        var i :| 0 <= i < |s| && ClassOf(s[i]) == k;
        if i > 0 {
          assert ClassOf(s[1..][i - 1]) == k;
        }
      }
    }
  }

  /** Whether a password meets one criterion. */
  predicate Meets(password: string, c: Criterion) {
    match c
    case MinLength => |password| >= 8
    case Lowercase => Contains(password, Lower)
    case Uppercase => Contains(password, Upper)
    case Number => Contains(password, Digit)
    case Special => Contains(password, Other)
  }

  /** What one criterion contributes to the feedback and to the score. */
  function Outcome(password: string, c: Criterion): seq<string> {
    if Meets(password, c) then [] else [Message(c)]
  }

  function Point(password: string, c: Criterion): nat {
    if Meets(password, c) then 1 else 0
  }

  /** Reference definition: the messages of the failing criteria among `cs`,
      in the order of `cs`. */
  function FailedMessages(password: string, cs: seq<Criterion>): seq<string> {
    if cs == [] then [] else Outcome(password, cs[0]) + FailedMessages(password, cs[1..])
  }

  /** Reference definition: how many of `cs` the password meets. */
  function MetCount(password: string, cs: seq<Criterion>): nat {
    if cs == [] then 0 else Point(password, cs[0]) + MetCount(password, cs[1..])
  }

  datatype StrengthReport = StrengthReport(strength: nat, feedback: seq<string>)

  /** One `if (test) strength++; else feedback.push(message);` step. */
  function Score(acc: StrengthReport, passed: bool, message: string): StrengthReport {
    if passed then acc.(strength := acc.strength + 1)
    else acc.(feedback := acc.feedback + [message])
  }

  /** The reference definitions unrolled over the five criteria. */
  lemma UnfoldCriteria(password: string)
    ensures FailedMessages(password, Criteria) ==
      Outcome(password, MinLength) + Outcome(password, Lowercase) + Outcome(password, Uppercase)
      + Outcome(password, Number) + Outcome(password, Special)
    ensures MetCount(password, Criteria) ==
      Point(password, MinLength) + Point(password, Lowercase) + Point(password, Uppercase)
      + Point(password, Number) + Point(password, Special)
  {
    var c4: seq<Criterion> := [Special];
    var c3 := [Number] + c4;
    var c2 := [Uppercase] + c3;
    var c1 := [Lowercase] + c2;
    var c0 := [MinLength] + c1;
    assert c0 == Criteria;
    assert c4[0] == Special && c4[1..] == [];
    assert c3[0] == Number && c3[1..] == c4;
    assert c2[0] == Uppercase && c2[1..] == c3;
    assert c1[0] == Lowercase && c1[1..] == c2;
    assert c0[0] == MinLength && c0[1..] == c1;
    assert FailedMessages(password, c4) == Outcome(password, Special) + [];
    assert FailedMessages(password, c3) == Outcome(password, Number) + FailedMessages(password, c4);
    assert FailedMessages(password, c2) == Outcome(password, Uppercase) + FailedMessages(password, c3);
    assert FailedMessages(password, c1) == Outcome(password, Lowercase) + FailedMessages(password, c2);
    assert FailedMessages(password, c0) == Outcome(password, MinLength) + FailedMessages(password, c1);
    assert MetCount(password, c4) == Point(password, Special);
    assert MetCount(password, c3) == Point(password, Number) + MetCount(password, c4);
    assert MetCount(password, c2) == Point(password, Uppercase) + MetCount(password, c3);
    assert MetCount(password, c1) == Point(password, Lowercase) + MetCount(password, c2);
  }

  lemma ScoreStep(acc: StrengthReport, password: string, c: Criterion)
    ensures Score(acc, Meets(password, c), Message(c))
         == StrengthReport(acc.strength + Point(password, c), acc.feedback + Outcome(password, c))
  {
  }

  /** `checkPasswordStrength(password)`. */
  function CheckPasswordStrength(password: string): (r: StrengthReport)
    ensures r.strength <= 5
    ensures r.strength + |r.feedback| == 5
    ensures r.strength == MetCount(password, Criteria)
    ensures r.feedback == FailedMessages(password, Criteria)
  {
    UnfoldCriteria(password);
    var r0 := StrengthReport(0, []);
    var r1 := Score(r0, |password| >= 8, Message(MinLength));
    ScoreStep(r0, password, MinLength);
    assert r1.feedback == Outcome(password, MinLength);
    var r2 := Score(r1, Contains(password, Lower), Message(Lowercase));
    ScoreStep(r1, password, Lowercase);
    var r3 := Score(r2, Contains(password, Upper), Message(Uppercase));
    ScoreStep(r2, password, Uppercase);
    var r4 := Score(r3, Contains(password, Digit), Message(Number));
    ScoreStep(r3, password, Number);
    ScoreStep(r4, password, Special);
    Score(r4, Contains(password, Other), Message(Special))
  }

  /** The rank of the criterion a feedback line names; 5 for any other
      text. */
  function MessageRank(m: string): nat {
    if m == Message(MinLength) then 0
    else if m == Message(Lowercase) then 1
    else if m == Message(Uppercase) then 2
    else if m == Message(Number) then 3
    else if m == Message(Special) then 4
    else 5
  }

  lemma MessageRankOf(c: Criterion)
    ensures MessageRank(Message(c)) == Rank(c)
  {
    match c
    case MinLength =>
    case Lowercase =>
    case Uppercase =>
    case Number =>
    case Special =>
  }

  /** A criterion's message is in the feedback exactly when the criterion
      fails. */
  lemma FeedbackExactlyFailures(password: string)
    ensures forall c :: Message(c) in CheckPasswordStrength(password).feedback <==> !Meets(password, c)
  {
    FailuresListed(password);
  }

  /** The feedback keeps the checking order: length, lowercase, uppercase,
      number, special (so no message repeats). */
  lemma FeedbackOrdered(password: string)
    ensures var fb := CheckPasswordStrength(password).feedback;
      forall i, j :: 0 <= i < j < |fb| ==> MessageRank(fb[i]) < MessageRank(fb[j])
  {
    FailedSorted(password, 0);
    assert Criteria[0..] == Criteria;
    assert CheckPasswordStrength(password).feedback == FailedMessages(password, Criteria);
  }

  lemma FailuresListed(password: string)
    ensures forall c :: Message(c) in FailedMessages(password, Criteria) <==> !Meets(password, c)
  {
    forall c
      ensures Message(c) in FailedMessages(password, Criteria) <==> !Meets(password, c)
    {
      FailedIn(password, Criteria, c);
      assert Criteria[Rank(c)] == c;
    }
  }

  /** A message is among the failed messages of `cs` iff its criterion is in
      `cs` and fails. */
  lemma {:induction false} FailedIn(password: string, cs: seq<Criterion>, c: Criterion)
    ensures Message(c) in FailedMessages(password, cs) <==> c in cs && !Meets(password, c)
  {
    if cs != [] {
      FailedIn(password, cs[1..], c);
      MessagesDistinct(c, cs[0]);
      assert c in cs <==> c == cs[0] || c in cs[1..];
    }
  }

  /** The failed messages of the suffix `Criteria[from..]` name criteria of
      rank at least `from`, in strictly increasing rank. */
  lemma {:induction false} FailedSorted(password: string, from: nat)
    requires from <= |Criteria|
    ensures var fb := FailedMessages(password, Criteria[from..]);
      && (forall i :: 0 <= i < |fb| ==> from <= MessageRank(fb[i]) < |Criteria|)
      && (forall i, j :: 0 <= i < j < |fb| ==> MessageRank(fb[i]) < MessageRank(fb[j]))
    decreases |Criteria| - from
  {
    if from < |Criteria| {
      var cs := Criteria[from..];
      var head := Outcome(password, cs[0]);
      var rest := FailedMessages(password, cs[1..]);
      var fb := head + rest;
      assert cs[1..] == Criteria[from + 1..];
      assert FailedMessages(password, cs) == fb;
      FailedSorted(password, from + 1);
      assert rest == FailedMessages(password, Criteria[from + 1..]);
      assert forall k :: 0 <= k < |rest| ==> from + 1 <= MessageRank(rest[k]);
      assert Rank(cs[0]) == from;
      MessageRankOf(cs[0]);
      forall i | 0 <= i < |fb|
        ensures from <= MessageRank(fb[i]) < |Criteria|
        ensures i >= |head| ==> from < MessageRank(fb[i])
      {
        if i >= |head| {
          assert fb[i] == rest[i - |head|];
          assert from + 1 <= MessageRank(rest[i - |head|]) < |Criteria|;
        } else {
          assert head == [Message(cs[0])];
          assert fb[i] == Message(cs[0]);
        }
      }
    }
  }

  /** Appending characters never loses a criterion: the class scans only
      gain matches and the length only grows. */
  lemma {:induction false} ContainsAppend(s: string, t: string, k: CharClass)
    requires Contains(s, k)
    ensures Contains(s + t, k)
  {
    assert (s + t)[0] == s[0];
    if ClassOf(s[0]) != k {
      assert (s + t)[1..] == s[1..] + t;
      ContainsAppend(s[1..], t, k);
    }
  }

  lemma MeetsAppend(s: string, t: string, c: Criterion)
    requires Meets(s, c)
    ensures Meets(s + t, c)
  {
    match c
    case MinLength =>
    case Lowercase => ContainsAppend(s, t, Lower);
    case Uppercase => ContainsAppend(s, t, Upper);
    case Number => ContainsAppend(s, t, Digit);
    case Special => ContainsAppend(s, t, Other);
  }

  /** Strength is monotone under appending characters, and every complaint
      about the longer password was already a complaint about the shorter. */
  lemma StrengthMonotone(s: string, t: string)
    ensures CheckPasswordStrength(s).strength <= CheckPasswordStrength(s + t).strength
    ensures forall m :: m in CheckPasswordStrength(s + t).feedback ==> m in CheckPasswordStrength(s).feedback
  {
    forall c | Meets(s, c) {
      MeetsAppend(s, t, c);
    }
    MetCountMonotone(s, s + t, Criteria);
    forall m | m in CheckPasswordStrength(s + t).feedback
      ensures m in CheckPasswordStrength(s).feedback
    {
      FailedMessagesShape(s + t, Criteria, m);
      var c :| c in Criteria && m == Message(c) && !Meets(s + t, c);
      FailedIn(s, Criteria, c);
    }
  }

  lemma {:induction false} MetCountMonotone(p: string, q: string, cs: seq<Criterion>)
    requires forall c :: Meets(p, c) ==> Meets(q, c)
    ensures MetCount(p, cs) <= MetCount(q, cs)
  {
    if cs != [] {
      MetCountMonotone(p, q, cs[1..]);
    }
  }

  /** Every failed message names a failing criterion of `cs`. */
  lemma {:induction false} FailedMessagesShape(password: string, cs: seq<Criterion>, m: string)
    requires m in FailedMessages(password, cs)
    ensures exists c :: c in cs && m == Message(c) && !Meets(password, c)
  {
    var head := if Meets(password, cs[0]) then [] else [Message(cs[0])];
    assert FailedMessages(password, cs) == head + FailedMessages(password, cs[1..]);
    if m in head {
      assert cs[0] in cs;
    } else {
      FailedMessagesShape(password, cs[1..], m);
      var c :| c in cs[1..] && m == Message(c) && !Meets(password, c);
      assert c in cs;
    }
  }

  /** `validatePassword(password)`: at least eight characters, nothing about
      their kind. */
  function ValidatePassword(password: string): (ok: bool)
    ensures ok <==> Meets(password, MinLength)
  {
    |password| >= 8
  }

  /** The validator agrees with the first strength criterion: it accepts
      exactly the passwords whose feedback lacks the length complaint. */
  lemma ValidatePasswordIsLengthCriterion(password: string)
    ensures ValidatePassword(password) <==> Message(MinLength) !in CheckPasswordStrength(password).feedback
  {
    FeedbackExactlyFailures(password);
  }

  const Labels: seq<string> := ["Very Weak", "Weak", "Fair", "Good", "Strong"]
  const Colors: seq<string> := ["#ff6b6b", "#ffa500", "#ffff00", "#9acd32", "#10b981"]

  /** `labels[strength] || 'Very Weak'`: an index past the table reads
      undefined and falls back. */
  function StrengthLabel(strength: nat): (shown: string)
    ensures strength < |Labels| ==> shown == Labels[strength]
    ensures strength >= |Labels| ==> shown == "Very Weak"
  {
    if strength < |Labels| then Labels[strength] else "Very Weak"
  }

  /** `colors[strength] || '#ff6b6b'`. */
  function StrengthColor(strength: nat): (color: string)
    ensures strength < |Colors| ==> color == Colors[strength]
    ensures strength >= |Colors| ==> color == "#ff6b6b"
  {
    if strength < |Colors| then Colors[strength] else "#ff6b6b"
  }

  /** The meter shows the label and colour of the score; a password meeting
      all five criteria is shown exactly like one meeting none. */
  lemma StrongestLooksWeakest(password: string)
    requires CheckPasswordStrength(password).strength == 5
    ensures StrengthLabel(CheckPasswordStrength(password).strength) == "Very Weak"
    ensures StrengthColor(CheckPasswordStrength(password).strength) == "#ff6b6b"
    ensures StrengthLabel(5) == StrengthLabel(0) && StrengthColor(5) == StrengthColor(0)
  {
  }

  /** The meter as intended: each score from 1 to 5 has its own label and
      colour, weakest to strongest, and a score of 0 shares the weakest. */
  function MeterIndex(strength: nat): (i: nat)
    ensures i < |Labels| && i < |Colors|
    ensures 1 <= strength <= |Labels| ==> i + 1 == strength
    ensures strength == 0 ==> i == 0
  {
    if strength == 0 then 0 else if strength > |Labels| then |Labels| - 1 else strength - 1
  }

  function MeterLabel(strength: nat): (shown: string)
    ensures shown in Labels
  {
    Labels[MeterIndex(strength)]
  }

  function MeterColor(strength: nat): (color: string)
    ensures color in Colors
  {
    Colors[MeterIndex(strength)]
  }

  /** The corrected meter never shows a weaker label for a higher score,
      reaches every label, and shows a full score as "Strong" in green. */
  lemma MeterFollowsScore(s: nat, t: nat)
    requires s <= t
    ensures MeterIndex(s) <= MeterIndex(t)
    ensures MeterLabel(5) == "Strong" && MeterColor(5) == "#10b981"
    ensures forall i :: 0 <= i < |Labels| ==> MeterLabel(i + 1) == Labels[i]
  {
  }

  /** The corrected meter tells a full score from an empty one, which the
      written lookup does not. */
  lemma MeterSeparatesExtremes(password: string)
    requires CheckPasswordStrength(password).strength == 5
    ensures MeterLabel(CheckPasswordStrength(password).strength) != MeterLabel(0)
    ensures MeterColor(CheckPasswordStrength(password).strength) != MeterColor(0)
  {
  }

  /** Worked example: "abc" earns only the lowercase point. */
  lemma ExampleLowercaseOnly()
    ensures CheckPasswordStrength("abc") ==
      StrengthReport(1, ["At least 8 characters", "Uppercase letter", "Number", "Special character"])
  {
    var p := "abc";
    ContainsMeansSomeChar(p, Lower);
    ContainsMeansSomeChar(p, Upper);
    ContainsMeansSomeChar(p, Digit);
    ContainsMeansSomeChar(p, Other);
    assert ClassOf(p[0]) == Lower;
    assert Meets(p, Lowercase);
    assert !Meets(p, MinLength) && !Meets(p, Uppercase) && !Meets(p, Number) && !Meets(p, Special);
  }

  /** Worked example: "Abcdef1!" meets all five criteria, and the meter
      labels it "Very Weak". */
  lemma ExampleAllCriteria()
    ensures CheckPasswordStrength("Abcdef1!") == StrengthReport(5, [])
    ensures StrengthLabel(CheckPasswordStrength("Abcdef1!").strength) == "Very Weak"
  {
    var p := "Abcdef1!";
    ContainsMeansSomeChar(p, Lower);
    ContainsMeansSomeChar(p, Upper);
    ContainsMeansSomeChar(p, Digit);
    ContainsMeansSomeChar(p, Other);
    assert ClassOf(p[0]) == Upper && ClassOf(p[1]) == Lower;
    assert ClassOf(p[6]) == Digit && ClassOf(p[7]) == Other;
    assert Meets(p, MinLength) && Meets(p, Lowercase) && Meets(p, Uppercase);
    assert Meets(p, Number) && Meets(p, Special);
  }
}
